=== FILE: README.md ===
# Applicant management API: a Dafny model

This project models the core of a small job-applicant service written in Go.
The service is a Fiber HTTP API backed by a Postgres table, accessed through GORM, with a Redis cache in front of its list endpoint.
It models three pieces:

- **Field validators** (`utils/validation.go`), in module `Validation`.
  The email and phone patterns become explicit scanning predicates over `seq<char>`.
  Each is proved equal to a declarative statement of its pattern.
  `SanitizeString` is `strings.TrimSpace`.
  `ValidateStatus` is the linear search over the five allowed statuses.
- **The applicant handlers** (`controllers/applicantController.go`), in module `ApplicantController`.
  Class `Service` holds three fields: the table as `rows: map<int, Row>`, the id counter `nextId`, and the Redis cache as `cache: map<string, seq<Applicant>>`.
  Each handler is a method: `Create`, `List`, `Get`, `Update`, `Delete`.
  Its contract gives the response and the whole new state for every branch of the Go handler.
  The table invariant is `Valid()`: ids are consistent, values fit their columns, and the unique email index covers soft-deleted rows too.
  The invariant is kept by every handler.
  Two per-request booleans stand for the environment:
  - `dbUp` says whether the database answers;
  - `cacheUp` says whether Redis answers.
  
  Key derivation, query-parameter parsing, offset arithmetic and the page window are pure.
  They live in module `CacheKeys`.
- **The bearer-token gate** (`middleware/auth.go`), in module `Auth`.
  It is a pure decision function over the request path and the Authorization header.
  The middleware is not installed on any route: `routes/applicant.go:18` installs only the request logger.

Module `GoStrings` models the Go library functions the core depends on:
- `strings.TrimSpace`, with Unicode white space;
- `strings.ToLower`, for the capitals whose lower case is ASCII (the ASCII capitals, the Kelvin sign U+212A and the dotted capital I U+0130);
- `strings.HasPrefix` and `strings.TrimPrefix`;
- `len` on a string, which counts UTF-8 bytes;
- `%d` formatting;
- `strconv.Atoi`, whose error the handlers ignore. It yields 0 on a syntax error and the int64 bound on overflow.

Module `Models` holds the record (`models/applicant.go`) and the table's invariant, with lemmas that each store operation keeps it.

The list endpoint's `page` and `limit` defaults apply only when the parameter is absent or empty.
A value that is not a number makes `strconv.Atoi` fail, and its 0 is used (`CacheKeys.NonNumericParams`).
The exception is a value whose leading digits overflow uint64: it reads as the int64 bound of its sign (`CacheKeys.OverflowingParams`).
For a non-negative limit, page 0 lists what page 1 lists; limit 0 lists nothing.

The store follows Postgres's assignment to `varchar(n)` columns.
A value longer than its column is refused, unless every excess character is a space; that value is stored cut to the column's size.
The create checks trim or validate every sized field, so only an update can store a cut value.
An update answers with the merged record as the handler holds it, while the row keeps the cut value.
Postgres's UTF8 text types cannot hold U+0000, so a value holding it is refused in every column, resume and notes included; the create checks do not look for it.

## Model

| member | source | states |
|---|---|---|
| GoStrings.SpaceEnd | utils/validation.go:24-26 | the forward scan stops at the first character that is not white space, and everything it passed is white space |
| GoStrings.SpaceStart | utils/validation.go:24-26 | the backward scan stops just after the last character that is not white space, and everything it passed is white space |
| GoStrings.TrimSpace | utils/validation.go:24-26 | the result has no white space at either end and is no longer than the input |
| GoStrings.TrimSpaceSlice | utils/validation.go:24-26 | the result is a contiguous slice of the input and everything dropped around it is white space |
| GoStrings.TrimSpaceOfTrimmed | utils/validation.go:24-26 | a string with no white space at either end is returned unchanged |
| GoStrings.TrimSpaceIdempotent | utils/validation.go:24-26 | trimming twice equals trimming once |
| GoStrings.TrimSpaceEmpty | utils/validation.go:24-26 | the result is empty exactly when the input is all white space |
| GoStrings.ToLower | controllers/applicantController.go:62 | lower-casing keeps the length |
| GoStrings.ToLowerAt | controllers/applicantController.go:62 | each upper-case ASCII letter becomes its lower-case letter, the Kelvin sign becomes 'k' and the dotted capital I becomes 'i'; every other character is kept, and none of those capitals remains |
| GoStrings.ToLowerKeepsSpace | controllers/applicantController.go:62 | lower-casing keeps white space exactly where it was |
| GoStrings.ToLowerIdempotent | controllers/applicantController.go:62 | lower-casing twice equals lower-casing once |
| GoStrings.ToLowerOfTrimmedIsTrimmed | controllers/applicantController.go:62 | the email as stored (trimmed, then lower-cased) is still trimmed |
| GoStrings.HasPrefix | middleware/auth.go:25 | strings.HasPrefix; its meaning is stated by HasPrefixSplit |
| GoStrings.HasPrefixSplit | middleware/auth.go:25 | a header starts with the prefix exactly when it is the prefix followed by some rest |
| GoStrings.TrimPrefix | middleware/auth.go:32 | with the prefix present the header is prefix plus result; otherwise the header is returned unchanged |
| GoStrings.ByteLen | middleware/auth.go:33 | the UTF-8 length lies between the number of characters and four times that |
| GoStrings.ByteLenAppend | middleware/auth.go:33 | the byte length of a concatenation is the sum of the byte lengths |
| GoStrings.NatToDecimal | controllers/applicantController.go:117 | a natural prints as one or more decimal digits, with no leading zero unless it is 0 |
| GoStrings.FormatInt | controllers/applicantController.go:117 | %d prints at least one character and starts with '-' exactly for negatives |
| GoStrings.DecimalRoundTrip | controllers/applicantController.go:117 | reading back the digits %d prints gives the number |
| GoStrings.FormatIntInjective | controllers/applicantController.go:117 | %d never prints two different integers the same way |
| GoStrings.FormatIntChars | controllers/applicantController.go:117 | the printed form holds only digits and '-' |
| GoStrings.Clamp64 | controllers/applicantController.go:113-114 | a value below int64's range becomes MinInt64, one above it MaxInt64, and in-range values are kept |
| GoStrings.Atoi | controllers/applicantController.go:113-114 | the parsed value is always an int64 |
| GoStrings.Unsigned | controllers/applicantController.go:113-114 | the text after a leading '+' or '-', or the whole text when there is none |
| GoStrings.AtoiSyntaxError | controllers/applicantController.go:113-114 | text that is not an optional sign and one or more digits parses as 0, unless its leading digits overflow uint64 |
| GoStrings.AtoiOverflowFirst | controllers/applicantController.go:113-114 | leading digits that overflow uint64 give the int64 bound of the sign, whatever follows them |
| GoStrings.AtoiNumeral | controllers/applicantController.go:113-114 | an optional sign and one or more digits read as the number they spell, leading zeros and '+' included, clamped to int64 |
| GoStrings.AtoiPlusSign | controllers/applicantController.go:113-114 | "+5" reads as 5 |
| GoStrings.AtoiLeadingZeros | controllers/applicantController.go:113-114 | "007" reads as 7 |
| GoStrings.AtoiMinusZero | controllers/applicantController.go:113-114 | "-0" reads as 0 |
| GoStrings.AtoiFormatInt | controllers/applicantController.go:113-114 | Atoi reads back every int64 that %d prints |
| Validation.IndexOf | utils/validation.go:10 | the position found holds the first '@', and none comes before it |
| Validation.TrailingLetters | utils/validation.go:10 | the count is that of the maximal run of letters ending the text |
| Validation.ValidateEmailSound | utils/validation.go:9-12 | every accepted email splits as local part, '@', domain, '.', top-level domain, with the pattern's character classes |
| Validation.ValidateEmailComplete | utils/validation.go:9-12 | every string of that shape is accepted |
| Validation.ValidateEmail | utils/validation.go:9-12 | an accepted email has its first '@' after at least one character and before at least four; ValidateEmailIsPattern states that it accepts exactly the strings of the regular expression |
| Validation.ValidateEmailIsPattern | utils/validation.go:9-12 | acceptance holds exactly when the pattern holds |
| Validation.AcceptedEmailShape | utils/validation.go:10-11 | an accepted email has exactly one '@', a non-empty local part, and ends in '.' and two or more letters |
| Validation.AcceptedEmailChars | utils/validation.go:10 | every character of an accepted email is from the local-part class or is '@' |
| Validation.AcceptedEmailTrimmed | utils/validation.go:10 | an accepted email has no white space at either end |
| Validation.EmailAccepted | utils/validation.go:9-12 | "john@example.com" is accepted |
| Validation.EmailRejected | utils/validation.go:9-12 | "not-an-email" is rejected |
| Validation.NoAtRejected | utils/validation.go:9-12 | a string without '@' is never accepted |
| Validation.ValidatePhone | utils/validation.go:15-21 | the empty phone is accepted, and any other accepted phone has 10 to 16 characters; ValidatePhoneIsPattern states that it accepts exactly the empty string and the strings of the regular expression |
| Validation.ValidatePhoneIsPattern | utils/validation.go:15-21 | a phone is accepted exactly when it is empty, or an optional '+' followed by 10 to 15 digits, white space, '-', '(' or ')' |
| Validation.AcceptedPhoneShape | utils/validation.go:19-20 | an accepted non-empty phone is 10 to 16 characters long, with phone characters after at most one leading '+' |
| Validation.PhoneExamples | utils/validation.go:16-20 | "" and "+1234567890" are accepted and "abc" is rejected |
| Validation.SanitizeString | utils/validation.go:24-26 | the output has no white space at either end and is no longer than the input |
| Validation.SanitizeSlice | utils/validation.go:24-26 | the output is a contiguous slice of the input, only white space is dropped, and it is empty exactly when the input is all white space |
| Validation.SanitizeIdempotent | utils/validation.go:24-26 | sanitizing twice equals sanitizing once |
| Validation.Contains | utils/validation.go:30-36 | the search succeeds exactly when some element equals the status |
| Validation.ValidateStatus | utils/validation.go:29-37 | a status is valid exactly when it is pending, reviewed, interviewed, hired or rejected |
| Validation.StatusExamples | utils/validation.go:29-37 | "hired" is valid; "ghosted" and "" are not |
| Models.InsertKeepsValid | controllers/applicantController.go:95 | inserting fitting fields with a free email at the next id keeps ids, column sizes, the absence of U+0000 and email uniqueness |
| Models.UpdateKeepsValid | controllers/applicantController.go:196 | overwriting a row with fitting, U+0000-free fields whose email no other row holds keeps the table valid |
| Models.SkipIdKeepsValid | controllers/applicantController.go:95-98 | an id the sequence hands out to a refused insert leaves the table valid |
| Models.CutToVarchar | models/applicant.go:14-18 | the stored value is the longest prefix that fits the column: the value itself when it fits, else its first n characters |
| Models.Stored | models/applicant.go:14-20 | the stored fields fit their columns, text columns are kept, fields that already fit are stored as they are, and fields free of U+0000 stay free of it |
| Models.FitsWhenNoTrailingSpace | models/applicant.go:14-18 | a value the column takes and that does not end in a space fits as it is |
| Models.StoredFitting | models/applicant.go:14-20 | fields that fit their columns and hold no U+0000 are taken and stored unchanged |
| Models.DeleteKeepsValid | controllers/applicantController.go:215 | a soft delete keeps the table valid |
| Models.DeletedEmailStaysTaken | controllers/applicantController.go:89-98 | a soft-deleted row's email is held by no live row, so the duplicate check passes, yet the unique index refuses it |
| Models.LiveBetween | controllers/applicantController.go:126 | the listing holds exactly the records of the live rows in the id range |
| Models.DeletedNeverListed | controllers/applicantController.go:126 | a soft-deleted record is never listed |
| CacheKeys.QueryOr | controllers/applicantController.go:110-111 | a present, non-empty parameter is used; otherwise the default is used |
| CacheKeys.PageParam | controllers/applicantController.go:110-113 | the page is an int64 and is 1 when the parameter is absent |
| CacheKeys.LimitParam | controllers/applicantController.go:111-114 | the limit is an int64 and is 10 when the parameter is absent |
| CacheKeys.NonNumericParams | controllers/applicantController.go:110-114 | a present page or limit that is not an optional sign and digits becomes 0, not the default, unless its leading digits overflow uint64 |
| CacheKeys.OverflowingParams | controllers/applicantController.go:110-114 | a page or limit whose leading digits overflow uint64 becomes the int64 bound of its sign |
| CacheKeys.NonNumericExamples | controllers/applicantController.go:110-114 | "abc", "5x", "1.5", "+" and "-" all give page 0 |
| CacheKeys.CacheKey | controllers/applicantController.go:117 | every list key starts with "applicants_page_" |
| CacheKeys.CacheKeyInjective | controllers/applicantController.go:117 | different (page, limit) pairs never share a cache key |
| CacheKeys.InvalidatedKeys | controllers/applicantController.go:102 | the two removed keys are those of page 1 at limits 10 and 20, and of no other pair |
| CacheKeys.StalePageSurvives | controllers/applicantController.go:100-102 | a page cached under any other pair survives the invalidation unchanged |
| CacheKeys.Wrap64 | controllers/applicantController.go:124 | the result is an int64 congruent to the input modulo 2^64, and an int64 input is kept |
| CacheKeys.Offset | controllers/applicantController.go:124 | the offset is an int64 congruent to (page-1)*limit modulo 2^64, as Go's int64 arithmetic wraps; OffsetExact gives the exact value when nothing overflows |
| CacheKeys.WrapTimes | controllers/applicantController.go:124 | wrapping the first operand before the multiplication does not change the product modulo 2^64 |
| CacheKeys.OffsetExact | controllers/applicantController.go:124 | without overflow the offset is (page-1)*limit |
| CacheKeys.OffsetOverflows | controllers/applicantController.go:124 | page 922337203685477582 at limit 10 wraps to a negative offset |
| CacheKeys.Page | controllers/applicantController.go:126 | the query returns the records after a positive offset, at most limit of them when the limit is not negative |
| CacheKeys.PageZeroIsFirstPage | controllers/applicantController.go:124-126 | for a non-negative limit, page 0 lists what page 1 lists |
| CacheKeys.LimitZeroIsEmpty | controllers/applicantController.go:124-126 | limit 0 lists nothing |
| CacheKeys.OverflowedPageRepeatsFirst | controllers/applicantController.go:124-126 | page 922337203685477582 at limit 10, whose offset wraps to a negative value, lists the first records again |
| ApplicantController.Sanitize | controllers/applicantController.go:60-65 | name, position, phone and notes come out with no white space at either end; status and resume are untouched |
| ApplicantController.CheckSanitized | controllers/applicantController.go:67-87 | an accepted record is the input with an empty status set to "pending"; an invalid non-empty status is refused |
| ApplicantController.CheckInput | controllers/applicantController.go:60-87 | an accepted record is the sanitized body with the status defaulted to "pending" |
| ApplicantController.InvalidStatusRejected | controllers/applicantController.go:83-87 | a body with a non-empty status outside the allowed set is refused |
| ApplicantController.RequiredCheck | controllers/applicantController.go:67-70 | "Name, email, and position are required" is the answer exactly when one of the three is empty after sanitizing |
| ApplicantController.MissingRequiredRejected | controllers/applicantController.go:60-70 | that answer is given exactly when the name, email or position is empty or all white space |
| ApplicantController.AcceptedIsStoredAsIs | controllers/applicantController.go:95-98 | a well-formed record the columns take is stored without any cut |
| ApplicantController.AcceptedIsWellFormed | controllers/applicantController.go:60-87 | every accepted body yields a record with a trimmed name and position, a valid lower-case email, a valid phone or none, and an allowed status |
| ApplicantController.SanitizeFixesTrimmed | controllers/applicantController.go:60-65 | sanitizing leaves trimmed fields and a lower-case email unchanged |
| ApplicantController.CheckSanitizedAcceptsWellFormed | controllers/applicantController.go:67-87 | the checks pass every well-formed record unchanged |
| ApplicantController.CheckInputOfSanitized | controllers/applicantController.go:60-65 | on a body that sanitizing leaves alone, the checks see the body itself |
| ApplicantController.CheckInputAcceptsWellFormed | controllers/applicantController.go:60-87 | every well-formed body is accepted unchanged |
| ApplicantController.CheckInputIdempotent | controllers/applicantController.go:60-87 | resubmitting the record a create accepted is accepted as the same record |
| ApplicantController.RunChecks | controllers/applicantController.go:60-87 | the step-by-step sanitizing and checks give exactly CheckInput's answer |
| ApplicantController.Merge | controllers/applicantController.go:196 | each field of the result is the patch's value when non-empty, else the current value |
| ApplicantController.MergeLaws | controllers/applicantController.go:196 | an empty patch changes nothing; a patch applied twice equals it applied once; two patches in a row equal one combined patch |
| ApplicantController.UpdateSkipsValidation | controllers/applicantController.go:189-198 | a patch with a non-empty invalid status or email merges into a record that is not well-formed |
| ApplicantController.Service.InvalidateListCache | controllers/applicantController.go:102 | with the cache up the two page-1 keys are removed and nothing else changes; with it down the cache is unchanged |
| ApplicantController.Service.Expire | controllers/applicantController.go:133 | a key's time-to-live ending removes that key only |
| ApplicantController.Service.Insert | controllers/applicantController.go:89-105 | 409 when a live row has the email; 500 with nothing changed when the store is down; 500 with rows and cache unchanged and the id counter not going back when the store refuses the row (a value too long for its column, a U+0000 in any column, or an email another row holds); otherwise 201 with the record at the next id, the row as stored, and the two keys removed |
| ApplicantController.Service.Create | controllers/applicantController.go:53-106 | 400 with the check's message and no change for an unparsable or refused body; otherwise the outcome of Insert on the checked record; a 201 record is live under the returned id |
| ApplicantController.Service.List | controllers/applicantController.go:108-167 | a cache hit returns the cached page and changes nothing; a miss reads the store and caches that page under the key; a cache error reads the store without writing the cache; a store error on a read gives 500; page and limit are echoed |
| ApplicantController.Service.Get | controllers/applicantController.go:169-178 | 200 with the record for a live id; 404 for an absent or soft-deleted id or a down store |
| ApplicantController.Service.Update | controllers/applicantController.go:180-203 | 404 with no change for a non-live id; 400 for an unparsable body; 500 with no change when a column refuses the merged record (too long, or holding U+0000) or its stored email is another row's; otherwise 200 with the merged record, the row holding it as stored, and the two keys removed |
| ApplicantController.Service.Delete | controllers/applicantController.go:205-222 | 404 with no change for a non-live id; otherwise the row is kept with its deleted flag set, and the two keys are removed |
| ApplicantController.CreateTwice | controllers/applicantController.go:89-93 | creating the same body twice: when the first answers 201, the second answers 409 "Email already exists" |
| ApplicantController.CreateThenGet | controllers/applicantController.go:169-178 | a created applicant is then fetched by its id exactly as returned, and is well-formed |
| ApplicantController.DeleteThenGet | controllers/applicantController.go:205-222 | after a successful delete the row is still stored and a get of that id answers 404 |
| ApplicantController.ListTwice | controllers/applicantController.go:119-166 | with the cache up, a second list of the same page repeats the first answer even when the store is down |
| ApplicantController.CreateWithNulResume | controllers/applicantController.go:89-98 | a create whose resume holds U+0000 never adds a row; when the body passes the checks and its email is not in use, the answer is 500 |
| ApplicantController.RecreateDeletedEmail | controllers/applicantController.go:89-98 | re-creating the body of a deleted applicant passes the duplicate check and fails with 500 |
| ApplicantController.UpdateStoresInvalidStatus | controllers/applicantController.go:189-198 | updating a live applicant with the status "ghosted" answers 200 and stores a record that is not well-formed |
| ApplicantController.KelvinSignEmail | controllers/applicantController.go:62-75 | the body email "\u212Aate@example.com" is sanitized to "kate@example.com", which passes the email check |
| Auth.SimpleAuth | middleware/auth.go:9-45 | every refusal is a 401; a request passes exactly on /health, or with a "Bearer " header of at least 17 bytes; passing off /health stores user_123 / admin |
| Auth.HealthAlwaysPasses | middleware/auth.go:12-14 | /health passes whatever the header and stores nothing |
| Auth.RejectionReasons | middleware/auth.go:17-37 | a missing header, a header without "Bearer " and a short token each get their own 401 message |
| Auth.AnyLongTokenPasses | middleware/auth.go:32-43 | any ten bytes after "Bearer " pass, all as the same user |
| Auth.ShortTokenOfWideChars | middleware/auth.go:33 | five two-byte characters make a valid token, because the length test counts bytes |

## Left out

- Go strings are byte strings and may hold invalid UTF-8; strings here are sequences of Unicode characters. No answer depends on it: JSON decoding turns request bodies into valid UTF-8, a non-digit byte in a query value is a syntax error for Atoi either way, and the token test counts bytes, which `ByteLen` gives for every valid string.
- Timestamps (created, updated, deleted-at values) are not modelled. Soft deletion is a flag on the row.
- Service.Create, Service.Update: an id or timestamps supplied in a client's JSON body are not modelled. The body is the seven text fields.
- Service.Get, Service.Update, Service.Delete: the id is an integer. GORM's reading of a non-numeric id string as an SQL condition is not modelled.
- Service.Delete: the 500 branch for a failing delete after a successful lookup is not modelled. With the store's availability fixed per request it cannot be reached.
- Service.List: the order of listed records is taken to be ascending id. The SQL query has no ORDER BY, so Postgres guarantees no order.
- CacheKeys.Page: a limit of 0 is modelled as LIMIT 0, which returns no rows. That is what current GORM versions send; older ones dropped a zero limit.
- GoStrings.ToLower: non-ASCII capitals other than U+212A and U+0130 are kept, where Go maps them to non-ASCII lower-case letters. The email pattern admits only ASCII characters, so an email holding such a letter is refused either way, and no handler's answer or stored value depends on the difference.
- Service.Insert: after the store refuses a row, the id counter is only said not to go back. A unique-index violation draws an id from the sequence, and the model advances the counter then. Whether a value too long for its column draws one depends on when Postgres checks it, so the model keeps the counter then.
- Service.Expire: the cache's 3-minute time-to-live is an explicit eviction of one key, not a clock.
- JSON encoding and decoding of bodies and cached values is not modelled. A cached page is the sequence of records itself, and an unparsable body is `None`.
- Logging is not modelled.
- `InitRedis` and `getEnv` (Redis connection set-up from the environment) are not modelled.
- database/db.go, main.go, routes/applicant.go and the request-logging middleware are not part of this model.
- Concurrent requests are not modelled: each handler runs alone, as one step.
- Postgres error details beyond refused rows are not modelled. A down store is a per-request boolean.

=== FILE: auth.dfy ===
/**
 * The SimpleAuth middleware of middleware/auth.go: the decision it takes on
 * a request's path and Authorization header.
 */
module Auth {
  import opened GoStrings

  /**
   * What the middleware does with a request: pass it on with the values it
   * stored in the request's locals, or answer it itself.
   */
  datatype Decision =
    | Next(locals: map<string, string>)
    | Reject(status: int, error: string)

  const HealthPath: string := "/health"
  const BearerPrefix: string := "Bearer "

  /** "Bearer " is seven one-byte characters. */
  lemma BearerPrefixBytes()
    ensures ByteLen(BearerPrefix) == 7
  {
  }

  /** The user every accepted token stands for. */
  const Identity: map<string, string> := map["user_id" := "user_123", "user_role" := "admin"]

  /**
   * SimpleAuth on a request for `path` whose Authorization header is
   * `authorization` ("" when absent). The length test counts bytes, as Go's
   * len does.
   */
  function SimpleAuth(path: string, authorization: string): (d: Decision)
    ensures d.Reject? ==> d.status == 401
    ensures d.Next? <==> path == HealthPath || (HasPrefix(authorization, BearerPrefix) && ByteLen(authorization) >= 17)
    ensures d.Next? && path != HealthPath ==> d.locals == Identity
  {
    if path == HealthPath then Next(map[])
    else if authorization == "" then Reject(401, "Authorization header required")
    else if !HasPrefix(authorization, BearerPrefix) then Reject(401, "Invalid authorization format")
    else
      var token := TrimPrefix(authorization, BearerPrefix);
      ByteLenAppend(BearerPrefix, token);
      BearerPrefixBytes();
      if token == "" || ByteLen(token) < 10 then Reject(401, "Invalid token")
      else Next(Identity)
  }

  /** The health check passes whatever the header, and stores nothing. */
  lemma HealthAlwaysPasses(authorization: string)
    ensures SimpleAuth(HealthPath, authorization) == Next(map[])
  {
  }

  /** Off the health path, each malformed header gets its own answer. */
  lemma RejectionReasons(path: string, authorization: string)
    requires path != HealthPath
    ensures authorization == "" ==>
      SimpleAuth(path, authorization) == Reject(401, "Authorization header required")
    ensures authorization != "" && !HasPrefix(authorization, BearerPrefix) ==>
      SimpleAuth(path, authorization) == Reject(401, "Invalid authorization format")
    ensures HasPrefix(authorization, BearerPrefix) && ByteLen(authorization) < 17 ==>
      SimpleAuth(path, authorization) == Reject(401, "Invalid token")
  {
    if HasPrefix(authorization, BearerPrefix) {
      ByteLenAppend(BearerPrefix, TrimPrefix(authorization, BearerPrefix));
      BearerPrefixBytes();
    }
  }

  /**
   * Only the header's shape and length are checked: any ten bytes after
   * "Bearer " are accepted, and all tokens map to the same user.
   */
  lemma AnyLongTokenPasses(path: string, token: string)
    requires ByteLen(token) >= 10
    ensures SimpleAuth(path, BearerPrefix + token) == if path == HealthPath then Next(map[]) else Next(Identity)
  {
    var authorization := BearerPrefix + token;
    assert HasPrefix(authorization, BearerPrefix) by {
      assert authorization[..|BearerPrefix|] == BearerPrefix;
    }
    assert ByteLen(authorization) >= 17 by {
      ByteLenAppend(BearerPrefix, token);
      BearerPrefixBytes();
    }
  }

  /** Five two-byte characters (ten bytes) are enough: the length test counts bytes, not characters. */
  lemma ShortTokenOfWideChars()
    ensures SimpleAuth("/applicants", BearerPrefix + "ééééé").Next?
  {
    var token := "ééééé";
    assert ByteLen(token) == 10;
    AnyLongTokenPasses("/applicants", token);
  }
}

=== FILE: cachekeys.dfy ===
/**
 * The pure parts of the list read in controllers/applicantController.go:
 * reading the page and limit query parameters, the cache key they derive,
 * the store offset, and the window of records the store query returns.
 */
module CacheKeys {
  import opened GoStrings
  import opened Models

  /**
   * c.Query(key, default): the parameter's value, or the default when the
   * parameter is absent or empty (absent is modelled as "").
   */
  function QueryOr(value: string, default: string): (r: string)
    ensures value != "" ==> r == value
    ensures value == "" ==> r == default
  {
    if value == "" then default else value
  }

  /** The page number a list request reads: "1" when absent, 0 when not a number. */
  function PageParam(value: string): (p: int)
    ensures MinInt64 <= p <= MaxInt64
    ensures value == "" ==> p == 1
  {
    assert FormatInt(1) == "1";
    AtoiFormatInt(1);
    Atoi(QueryOr(value, "1"))
  }

  /** The page size a list request reads: "10" when absent, 0 when not a number. */
  function LimitParam(value: string): (l: int)
    ensures MinInt64 <= l <= MaxInt64
    ensures value == "" ==> l == 10
  {
    assert FormatInt(10) == "10";
    AtoiFormatInt(10);
    Atoi(QueryOr(value, "10"))
  }

  /**
   * A parameter that is present but not a number (not an optional sign
   * followed by one or more digits) is not replaced by the default: unless
   * its leading digits overflow uint64, Atoi's syntax error gives 0 for both
   * the page and the limit.
   */
  lemma NonNumericParams(value: string)
    requires var body := Unsigned(value);
             value != "" && (body == [] || !AllDigits(body)) && DecimalValue(body[..DigitRun(body)]) <= MaxUint64
    ensures PageParam(value) == 0 && LimitParam(value) == 0
  {
    AtoiSyntaxError(value);
  }

  /**
   * A parameter whose leading digits overflow uint64 reads as the int64
   * bound of its sign, whatever follows the digits.
   */
  lemma OverflowingParams(value: string)
    requires var body := Unsigned(value); value != "" && DecimalValue(body[..DigitRun(body)]) > MaxUint64
    ensures PageParam(value) == LimitParam(value) == if value[0] == '-' then MinInt64 else MaxInt64
  {
    AtoiOverflowFirst(value);
  }

  /** "abc", "5x", "1.5", "+" and "-" all read as page 0. */
  lemma NonNumericExamples()
    ensures PageParam("abc") == 0 && PageParam("5x") == 0 && PageParam("1.5") == 0
    ensures PageParam("+") == 0 && PageParam("-") == 0
  {
    assert DigitRun("5x") == 1 && DigitRun("1.5") == 1;
    assert "5x"[..1] == "5" && "1.5"[..1] == "1";
  }

  const KeyPrefix: string := "applicants_page_"
  const KeyInfix: string := "_limit_"

  /** fmt.Sprintf("applicants_page_%d_limit_%d", page, limit). */
  function CacheKey(page: int, limit: int): (k: string)
    ensures HasPrefix(k, KeyPrefix)
  {
    KeyPrefix + FormatInt(page) + (KeyInfix + FormatInt(limit))
  }

  /** In p + a + r, where a holds no '_' and r starts with one, the first '_' after p ends a. */
  lemma FirstSeparator(p: string, a: string, r: string)
    requires forall i :: 0 <= i < |a| ==> a[i] != '_'
    requires r != [] && r[0] == '_'
    ensures var k, n := p + a + r, |p| + |a|;
            n < |k| && k[n] == '_' && forall i :: |p| <= i < n ==> k[i] != '_'
  {
    var k, n := p + a + r, |p| + |a|;
    assert k[n] == r[0];
    forall i | |p| <= i < n ensures k[i] != '_' {
      assert k[i] == a[i - |p|];
    }
  }

  /** A printed integer holds no '_'. */
  lemma NoSeparatorInNumber(n: int)
    ensures forall i :: 0 <= i < |FormatInt(n)| ==> FormatInt(n)[i] != '_'
  {
    forall i | 0 <= i < |FormatInt(n)| ensures FormatInt(n)[i] != '_' {
      FormatIntChars(n, i);
    }
  }

  /**
   * Two equal strings p + a + r and p + c + t, where a and c hold no '_' and
   * r and t start with one, agree part by part.
   */
  lemma SameParts(p: string, a: string, r: string, c: string, t: string)
    requires p + a + r == p + c + t
    requires forall i :: 0 <= i < |a| ==> a[i] != '_'
    requires forall i :: 0 <= i < |c| ==> c[i] != '_'
    requires r != [] && r[0] == '_' && t != [] && t[0] == '_'
    ensures a == c && r == t
  {
    var k := p + a + r;
    FirstSeparator(p, a, r);
    FirstSeparator(p, c, t);
    assert |a| == |c| by {
      assert k[|p| + |a|] == '_' && k[|p| + |c|] == '_';
    }
    assert a == k[|p|..|p| + |a|] == c;
    assert r == k[|p| + |a|..] == t;
  }

  /** Two different (page, limit) pairs never share a cache key. */
  lemma {:induction false} CacheKeyInjective(p1: int, l1: int, p2: int, l2: int)
    requires CacheKey(p1, l1) == CacheKey(p2, l2)
    ensures p1 == p2 && l1 == l2
  {
    var r, t := KeyInfix + FormatInt(l1), KeyInfix + FormatInt(l2);
    assert r[0] == '_' && t[0] == '_' by {
      assert r[0] == KeyInfix[0] == t[0];
    }
    NoSeparatorInNumber(p1);
    NoSeparatorInNumber(p2);
    SameParts(KeyPrefix, FormatInt(p1), r, FormatInt(p2), t);
    assert FormatInt(l1) == r[|KeyInfix|..] == t[|KeyInfix|..] == FormatInt(l2);
    FormatIntInjective(p1, p2);
    FormatIntInjective(l1, l2);
  }

  /** The two keys every create, update and delete removes. */
  const Page1Limit10Key: string := "applicants_page_1_limit_10"
  const Page1Limit20Key: string := "applicants_page_1_limit_20"

  /** The removed keys are the list keys of page 1 at limits 10 and 20, and of no other pair. */
  lemma InvalidatedKeys(page: int, limit: int)
    ensures CacheKey(page, limit) == Page1Limit10Key <==> page == 1 && limit == 10
    ensures CacheKey(page, limit) == Page1Limit20Key <==> page == 1 && limit == 20
  {
    assert FormatInt(1) == "1" && FormatInt(10) == "10" && FormatInt(20) == "20";
    assert CacheKey(1, 10) == Page1Limit10Key;
    assert CacheKey(1, 20) == Page1Limit20Key;
    if CacheKey(page, limit) == Page1Limit10Key {
      CacheKeyInjective(page, limit, 1, 10);
    }
    if CacheKey(page, limit) == Page1Limit20Key {
      CacheKeyInjective(page, limit, 1, 20);
    }
  }

  /**
   * The invalidation is incomplete: a page cached under any other (page,
   * limit) survives it unchanged and can be served stale until it expires.
   */
  lemma StalePageSurvives(cache: map<string, seq<Applicant>>, page: int, limit: int)
    requires !(page == 1 && (limit == 10 || limit == 20))
    requires CacheKey(page, limit) in cache
    ensures var kept := cache - {Page1Limit10Key, Page1Limit20Key};
            CacheKey(page, limit) in kept && kept[CacheKey(page, limit)] == cache[CacheKey(page, limit)]
  {
    InvalidatedKeys(page, limit);
  }

  const TwoTo64: int := 0x1_0000_0000_0000_0000

  /** Go's int arithmetic: the result wraps around into the int64 range. */
  function Wrap64(x: int): (r: int)
    ensures MinInt64 <= r <= MaxInt64
    ensures (x - r) % TwoTo64 == 0
    ensures MinInt64 <= x <= MaxInt64 ==> r == x
  {
    (x - MinInt64) % TwoTo64 + MinInt64
  }

  /**
   * offset := (pageInt - 1) * limitInt, evaluated in int64: the int64 that
   * agrees with the exact product modulo 2^64, which is the product itself
   * when nothing overflows.
   */
  function Offset(page: int, limit: int): (r: int)
    ensures MinInt64 <= r <= MaxInt64
    ensures (r - (page - 1) * limit) % TwoTo64 == 0
  {
    var p := Wrap64(page - 1);
    var r := Wrap64(p * limit);
    WrapTimes(page - 1, p, limit, r);
    r
  }

  /**
   * When b agrees with a modulo 2^64, and r with b * c, then r agrees with
   * a * c: wrapping an operand before multiplying changes nothing modulo 2^64.
   */
  lemma WrapTimes(a: int, b: int, c: int, r: int)
    requires (a - b) % TwoTo64 == 0 && (b * c - r) % TwoTo64 == 0
    ensures (r - a * c) % TwoTo64 == 0
  {
    var k := (a - b) / TwoTo64;
    var j := (b * c - r) / TwoTo64;
    assert a - b == k * TwoTo64;
    assert b * c - r == j * TwoTo64;
    assert a * c - b * c == (k * c) * TwoTo64 by {
      assert a * c - b * c == (a - b) * c;
    }
    assert r - a * c == -(k * c + j) * TwoTo64;
  }

  /** Without overflow the offset is the number of records on the earlier pages. */
  lemma OffsetExact(page: int, limit: int)
    requires MinInt64 < page <= MaxInt64
    requires MinInt64 <= (page - 1) * limit <= MaxInt64
    ensures Offset(page, limit) == (page - 1) * limit
  {
  }

  /** Page 922337203685477582 at limit 10 overflows to a negative offset. */
  lemma OffsetOverflows()
    ensures Offset(922337203685477582, 10) == -9223372036854775806
  {
    assert (922337203685477582 - 1) * 10 == 9223372036854775810;
  }

  /**
   * Offset(offset).Limit(limit).Find: the store skips `offset` records when it
   * is positive and returns at most `limit` of the rest when it is not
   * negative (a negative limit puts no bound on the query).
   */
  function Page(records: seq<Applicant>, offset: int, limit: int): (r: seq<Applicant>)
    ensures var skip := if offset > 0 then offset else 0;
            forall i :: 0 <= i < |r| ==> skip + i < |records| && r[i] == records[skip + i]
    ensures var skip := if offset > 0 then offset else 0;
            var rest := if skip < |records| then |records| - skip else 0;
            |r| == if 0 <= limit < rest then limit else rest
  {
    var start := if offset <= 0 then 0 else if offset < |records| then offset else |records|;
    var rest := records[start..];
    if 0 <= limit < |rest| then rest[..limit] else rest
  }

  /**
   * For a non-negative limit, page 0 (a non-numeric page) lists what page 1
   * lists: its offset is not positive and is dropped.
   */
  lemma PageZeroIsFirstPage(records: seq<Applicant>, limit: int)
    requires 0 <= limit <= MaxInt64
    ensures Page(records, Offset(0, limit), limit) == Page(records, Offset(1, limit), limit)
  {
  }

  /** A limit of 0 (a non-numeric limit) lists nothing. */
  lemma LimitZeroIsEmpty(records: seq<Applicant>, page: int)
    ensures Page(records, Offset(page, 0), 0) == []
  {
  }

  /**
   * Page 922337203685477582 at limit 10 lists the first records again: its
   * offset wraps to a negative value, which is dropped. (Other overflowing
   * offsets can wrap to positive values and list other records.)
   */
  lemma OverflowedPageRepeatsFirst(records: seq<Applicant>)
    ensures Page(records, Offset(922337203685477582, 10), 10) == Page(records, 0, 10)
  {
    OffsetOverflows();
  }
}

=== FILE: controller.dfy ===
/**
 * The applicant handlers of controllers/applicantController.go over an
 * abstract store (the applicants table) and an abstract cache (Redis).
 * Whether the store and the cache answer during a request is a parameter of
 * each handler: `dbUp` and `cacheUp`.
 */
module ApplicantController {
  import opened GoStrings
  import opened Validation
  import opened Models
  import opened CacheKeys

  datatype Option<T> = None | Some(value: T)

  /** The JSON body of a response. */
  datatype Payload =
    | Record(applicant: Applicant)
    | Listing(data: seq<Applicant>, page: int, limit: int)
    | Failure(error: string)
    | Ack(message: string)

  datatype Response = Response(status: int, payload: Payload)

  /** The outcome of the checks a create runs before touching the store. */
  datatype Checked = Accepted(fields: Fields) | Rejected(message: string)

  // ---------------------------------------------------------------------------
  // Create: what the checks accept
  // ---------------------------------------------------------------------------

  /** Trimmed text: no white space at either end. */
  predicate Trimmed(s: string) {
    s == [] || (!IsSpace(s[0]) && !IsSpace(s[|s| - 1]))
  }

  /**
   * What a created record satisfies: name, email and position present and
   * trimmed, a valid lower-case email, a valid phone or none, a status from
   * the allowed set, and trimmed notes.
   */
  predicate WellFormed(f: Fields) {
    f.name != "" && Trimmed(f.name) &&
    f.position != "" && Trimmed(f.position) &&
    ValidateEmail(f.email) && ToLower(f.email) == f.email &&
    Trimmed(f.phone) && (f.phone == "" || ValidatePhone(f.phone)) &&
    ValidateStatus(f.status) &&
    Trimmed(f.notes)
  }

  /** The in-place sanitizing of CreateApplicant: trim five fields, lower-case the email. */
  function Sanitize(body: Fields): (f: Fields)
    ensures Trimmed(f.name) && Trimmed(f.position) && Trimmed(f.phone) && Trimmed(f.notes)
    ensures f.status == body.status && f.resume == body.resume
  {
    Fields(SanitizeString(body.name), ToLower(SanitizeString(body.email)), SanitizeString(body.position),
           body.status, SanitizeString(body.phone), body.resume, SanitizeString(body.notes))
  }

  /** The fields with another status. */
  function WithStatus(f: Fields, status: string): Fields {
    Fields(f.name, f.email, f.position, status, f.phone, f.resume, f.notes)
  }

  /**
   * The checks of CreateApplicant on the sanitized body, in the handler's
   * order: name, email and position required, the email's shape, the phone's
   * shape if one is given, and the status defaulted or checked.
   */
  function CheckSanitized(f: Fields): (c: Checked)
    ensures c.Accepted? ==> c.fields == if f.status == "" then WithStatus(f, "pending") else f
    ensures f.status != "" && !ValidateStatus(f.status) ==> c.Rejected?
  {
    if f.name == "" || f.email == "" || f.position == "" then Rejected("Name, email, and position are required")
    else if !ValidateEmail(f.email) then Rejected("Invalid email format")
    else if f.phone != "" && !ValidatePhone(f.phone) then Rejected("Invalid phone number format")
    else if f.status == "" then Accepted(WithStatus(f, "pending"))
    else if !ValidateStatus(f.status) then Rejected("Invalid status value")
    else Accepted(f)
  }

  /** What a create accepts from a parsed body, and the record it would store. */
  function CheckInput(body: Fields): (c: Checked)
    ensures c.Accepted? ==> c.fields == if body.status == "" then WithStatus(Sanitize(body), "pending") else Sanitize(body)
  {
    CheckSanitized(Sanitize(body))
  }

  /** A body with a status outside the allowed set is refused, whatever else it holds. */
  lemma InvalidStatusRejected(body: Fields)
    requires body.status != "" && !ValidateStatus(body.status)
    ensures CheckInput(body).Rejected?
  {
    assert Sanitize(body).status == body.status;
  }

  /** The first check refuses exactly the sanitized bodies that lack a name, an email or a position. */
  lemma RequiredCheck(f: Fields)
    ensures CheckSanitized(f) == Rejected("Name, email, and position are required") <==>
      f.name == [] || f.email == [] || f.position == []
  {
  }

  /** A body whose name, email or position is missing or only white space is refused, and only such a body gets that answer. */
  lemma MissingRequiredRejected(body: Fields)
    ensures AllSpace(body.name) || AllSpace(body.email) || AllSpace(body.position) <==>
      CheckInput(body) == Rejected("Name, email, and position are required")
  {
    TrimSpaceEmpty(body.name);
    TrimSpaceEmpty(body.email);
    TrimSpaceEmpty(body.position);
    RequiredCheck(Sanitize(body));
  }

  /** Every body the checks accept becomes a well-formed record. */
  lemma AcceptedIsWellFormed(body: Fields)
    requires CheckInput(body).Accepted?
    ensures WellFormed(CheckInput(body).fields)
  {
    var f := CheckInput(body).fields;
    ToLowerIdempotent(SanitizeString(body.email));
    assert f.name != "" && Trimmed(f.name);
    assert f.position != "" && Trimmed(f.position);
    assert ValidateEmail(f.email);
    assert ToLower(f.email) == f.email;
    assert Trimmed(f.phone) && (f.phone == "" || ValidatePhone(f.phone));
    assert ValidateStatus(f.status);
    assert Trimmed(f.notes);
  }

  /** Trimmed text that a varchar(n) column takes fits it as it is. */
  lemma TrimmedFits(s: string, n: nat)
    requires Trimmed(s) && FitsVarchar(s, n)
    ensures |s| <= n
  {
    FitsWhenNoTrailingSpace(s, n);
  }

  /** A well-formed record the store accepts is stored exactly as it is: nothing is cut. */
  lemma AcceptedIsStoredAsIs(f: Fields)
    requires WellFormed(f) && Storable(f)
    ensures Stored(f) == f
  {
    AcceptedEmailTrimmed(f.email);
    TrimmedFits(f.name, 100);
    TrimmedFits(f.email, 150);
    TrimmedFits(f.position, 100);
    TrimmedFits(f.phone, 20);
    assert |f.status| <= 20;
  }

  /** Sanitizing trimmed text leaves it as it is. */
  lemma SanitizeTrimmed(s: string)
    requires Trimmed(s)
    ensures SanitizeString(s) == s
  {
    TrimSpaceOfTrimmed(s);
  }

  /** Sanitizing leaves trimmed text and a lower-case email as they are. */
  lemma SanitizeFixesTrimmed(f: Fields)
    requires Trimmed(f.name) && Trimmed(f.email) && Trimmed(f.position) && Trimmed(f.phone) && Trimmed(f.notes)
    requires ToLower(f.email) == f.email
    ensures Sanitize(f) == f
  {
    SanitizeTrimmed(f.name);
    SanitizeTrimmed(f.email);
    SanitizeTrimmed(f.position);
    SanitizeTrimmed(f.phone);
    SanitizeTrimmed(f.notes);
  }

  /** The checks accept every well-formed body unchanged. */
  lemma CheckInputAcceptsWellFormed(f: Fields)
    requires WellFormed(f)
    ensures CheckInput(f) == Accepted(f)
  {
    AcceptedEmailTrimmed(f.email);
    SanitizeFixesTrimmed(f);
    CheckSanitizedAcceptsWellFormed(f);
    CheckInputOfSanitized(f);
  }

  /** The checks themselves pass every well-formed record, status included. */
  lemma CheckSanitizedAcceptsWellFormed(f: Fields)
    requires WellFormed(f)
    ensures CheckSanitized(f) == Accepted(f)
  {
  }

  /** On a body that sanitizing leaves alone, the checks see the body itself. */
  lemma CheckInputOfSanitized(f: Fields)
    requires Sanitize(f) == f
    ensures CheckInput(f) == CheckSanitized(f)
  {
  }

  /** Checking an accepted body again accepts it again, unchanged. */
  lemma CheckInputIdempotent(body: Fields)
    requires CheckInput(body).Accepted?
    ensures CheckInput(CheckInput(body).fields) == CheckInput(body)
  {
    AcceptedIsWellFormed(body);
    CheckInputAcceptsWellFormed(CheckInput(body).fields);
  }

  /**
   * The sanitizing and the checks as CreateApplicant runs them, one step
   * after another on the body it parsed.
   */
  method RunChecks(body: Fields) returns (c: Checked)
    ensures c == CheckInput(body)
  {
    var applicant := Sanitize(body);
    if applicant.name == "" || applicant.email == "" || applicant.position == "" {
      return Rejected("Name, email, and position are required");
    }
    if !ValidateEmail(applicant.email) {
      return Rejected("Invalid email format");
    }
    if applicant.phone != "" && !ValidatePhone(applicant.phone) {
      return Rejected("Invalid phone number format");
    }
    if applicant.status == "" {
      applicant := WithStatus(applicant, "pending");
    } else if !ValidateStatus(applicant.status) {
      return Rejected("Invalid status value");
    }
    c := Accepted(applicant);
  }

  // ---------------------------------------------------------------------------
  // Update: the partial merge
  // ---------------------------------------------------------------------------

  /** A supplied (non-empty) value wins over the current one. */
  function Pick(supplied: string, current: string): string {
    if supplied != "" then supplied else current
  }

  /** `merged` is the supplied value when one is supplied, else the current one. */
  predicate Overwrites(merged: string, current: string, supplied: string) {
    (supplied == "" ==> merged == current) && (supplied != "" ==> merged == supplied)
  }

  /** Updates(updateData): every non-empty field of the patch overwrites the record's. */
  function Merge(current: Fields, patch: Fields): (m: Fields)
    ensures Overwrites(m.name, current.name, patch.name)
    ensures Overwrites(m.email, current.email, patch.email)
    ensures Overwrites(m.position, current.position, patch.position)
    ensures Overwrites(m.status, current.status, patch.status)
    ensures Overwrites(m.phone, current.phone, patch.phone)
    ensures Overwrites(m.resume, current.resume, patch.resume)
    ensures Overwrites(m.notes, current.notes, patch.notes)
  {
    Fields(
      Pick(patch.name, current.name),
      Pick(patch.email, current.email),
      Pick(patch.position, current.position),
      Pick(patch.status, current.status),
      Pick(patch.phone, current.phone),
      Pick(patch.resume, current.resume),
      Pick(patch.notes, current.notes))
  }

  const EmptyPatch: Fields := Fields("", "", "", "", "", "", "")

  /**
   * An empty patch changes nothing, applying a patch twice is applying it
   * once, and two updates in a row are one update with the later patch
   * laid over the earlier one.
   */
  lemma MergeLaws(current: Fields, p1: Fields, p2: Fields)
    ensures Merge(current, EmptyPatch) == current
    ensures Merge(Merge(current, p1), p1) == Merge(current, p1)
    ensures Merge(Merge(current, p1), p2) == Merge(current, Merge(p1, p2))
  {
  }

  /**
   * The merge does not re-run the create checks: a patch carrying a status
   * outside the allowed set, or a text that is not an email, yields a record
   * that is not WellFormed.
   */
  lemma UpdateSkipsValidation(current: Fields, patch: Fields)
    ensures patch.status != "" && !ValidateStatus(patch.status) ==> !WellFormed(Merge(current, patch))
    ensures patch.email != "" && !ValidateEmail(patch.email) ==> !WellFormed(Merge(current, patch))
  {
  }

  // ---------------------------------------------------------------------------
  // The service: store and cache
  // ---------------------------------------------------------------------------

  class Service {
    /** The applicants table, by id; soft-deleted rows stay. */
    var rows: map<int, Row>
    /** The id the store assigns to the next inserted row. */
    var nextId: int
    /** The Redis cache: list pages by cache key. */
    var cache: map<string, seq<Applicant>>

    /** The table's invariant holds of this store. */
    ghost predicate Valid()
      reads this`rows, this`nextId
    {
      TableValid(rows, nextId)
    }

    constructor ()
      ensures Valid()
      ensures rows == map[] && nextId == 1 && cache == map[]
    {
      rows := map[];
      nextId := 1;
      cache := map[];
    }

    /** A row with this id exists and is not soft-deleted. */
    predicate IsLive(id: int)
      reads this
    {
      id in rows && !rows[id].deleted
    }

    /** Some live row has this email: the duplicate check of a create. */
    predicate EmailInUse(email: string)
      reads this
    {
      LiveEmail(rows, email)
    }

    /**
     * The store accepts these fields for the row `id` (0 for a new row):
     * every column takes its value, and no other row, deleted or not, holds
     * the email as it would be stored.
     */
    predicate Admits(f: Fields, id: int)
      reads this
    {
      Storable(f) && EmailFree(rows, Stored(f).email, id)
    }

    /** The live records in id order. */
    function LiveRecords(): seq<Applicant>
      reads this`rows, this`nextId
    {
      LiveBetween(rows, 1, nextId)
    }

    /** What the store returns for the list query of (page, limit). */
    function StorePage(page: int, limit: int): seq<Applicant>
      reads this`rows, this`nextId
    {
      Page(LiveRecords(), Offset(page, limit), limit)
    }

    /** rdb.Del of the two well-known list keys; a failing cache is ignored. */
    method InvalidateListCache(cacheUp: bool)
      modifies this`cache
      ensures cache == if cacheUp then old(cache) - {Page1Limit10Key, Page1Limit20Key} else old(cache)
    {
      if cacheUp {
        cache := cache - {Page1Limit10Key, Page1Limit20Key};
      }
    }

    /** The cache's time-to-live running out for one key. */
    method Expire(key: string)
      modifies this`cache
      ensures cache == old(cache) - {key}
    {
      cache := cache - {key};
    }

    /**
     * What the store half of a create answers for accepted fields `f`, and
     * the state it leaves: a 409 for an email a live row holds (when the
     * store answers the duplicate query); a 500 when the store is down, with
     * nothing changed; a 500 when the store refuses the row, with no row or
     * cache entry changed but the id sequence possibly advanced; else a 201
     * with the record at the next id, the row as stored, and the two list
     * keys removed from the cache.
     */
    twostate predicate Inserted(f: Fields, dbUp: bool, cacheUp: bool, resp: Response)
      reads this
    {
      if dbUp && old(EmailInUse(f.email)) then
        resp == Response(409, Failure("Email already exists")) && unchanged(this)
      else if !dbUp then
        resp == Response(500, Failure("Failed to create applicant")) && unchanged(this)
      else if !old(Admits(f, 0)) then
        resp == Response(500, Failure("Failed to create applicant")) &&
        rows == old(rows) && cache == old(cache) && nextId >= old(nextId)
      else
        var id := old(nextId);
        resp == Response(201, Record(Applicant(id, f))) &&
        rows == old(rows)[id := Row(Applicant(id, Stored(f)), false)] &&
        id !in old(rows) &&
        nextId == old(nextId) + 1 &&
        cache == if cacheUp then old(cache) - {Page1Limit10Key, Page1Limit20Key} else old(cache)
    }

    /** The store half of CreateApplicant: the duplicate query, then the insert. */
    method Insert(f: Fields, dbUp: bool, cacheUp: bool) returns (resp: Response)
      requires Valid()
      modifies this
      ensures Valid()
      ensures Inserted(f, dbUp, cacheUp, resp)
    {
      // With the store down the duplicate query errs, which the handler reads as "no duplicate".
      if dbUp && EmailInUse(f.email) {
        return Response(409, Failure("Email already exists"));
      }
      if !dbUp {
        return Response(500, Failure("Failed to create applicant"));
      }
      if !Admits(f, 0) {
        if Storable(f) {
          // The unique index refuses the row after the sequence handed out its id.
          SkipIdKeepsValid(rows, nextId);
          nextId := nextId + 1;
        }
        return Response(500, Failure("Failed to create applicant"));
      }
      var id := nextId;
      InsertKeepsValid(rows, id, Stored(f));
      rows := rows[id := Row(Applicant(id, Stored(f)), false)];
      nextId := nextId + 1;
      InvalidateListCache(cacheUp);
      resp := Response(201, Record(Applicant(id, f)));
    }

    /** CreateApplicant. `body` is None when the request body does not parse. */
    method Create(body: Option<Fields>, dbUp: bool, cacheUp: bool) returns (resp: Response)
      requires Valid()
      modifies this
      ensures Valid()
      ensures body.None? ==> resp == Response(400, Failure("Invalid request body")) && unchanged(this)
      ensures body.Some? && CheckInput(body.value).Rejected? ==>
        resp == Response(400, Failure(CheckInput(body.value).message)) && unchanged(this)
      ensures body.Some? && CheckInput(body.value).Accepted? ==>
        Inserted(CheckInput(body.value).fields, dbUp, cacheUp, resp)
      ensures resp.status == 201 ==>
        body.Some? && CheckInput(body.value).Accepted? &&
        resp.payload == Record(Applicant(old(nextId), CheckInput(body.value).fields)) &&
        IsLive(old(nextId)) && rows[old(nextId)].applicant == resp.payload.applicant
    {
      if body.None? {
        return Response(400, Failure("Invalid request body"));
      }
      var checked := RunChecks(body.value);
      if checked.Rejected? {
        return Response(400, Failure(checked.message));
      }
      resp := Insert(checked.fields, dbUp, cacheUp);
      if resp.status == 201 {
        AcceptedIsWellFormed(body.value);
        AcceptedIsStoredAsIs(checked.fields);
      }
    }

    /**
     * GetApplicants: read page and limit, derive the cache key, and serve the
     * cached page on a hit; on a miss read the store and cache what it
     * returned; when the cache errs read the store and leave the cache alone.
     */
    method List(pageValue: string, limitValue: string, dbUp: bool, cacheUp: bool) returns (resp: Response)
      requires Valid()
      modifies this`cache
      ensures Valid()
      ensures var page, limit := PageParam(pageValue), LimitParam(limitValue);
        var key := CacheKey(page, limit);
        if cacheUp && key in old(cache) then
          resp == Response(200, Listing(old(cache)[key], page, limit)) && cache == old(cache)
        else if !dbUp then
          resp == Response(500, Failure("Failed to fetch applicants")) && cache == old(cache)
        else
          resp == Response(200, Listing(StorePage(page, limit), page, limit)) &&
          cache == if cacheUp then old(cache)[key := StorePage(page, limit)] else old(cache)
    {
      var page := Atoi(QueryOr(pageValue, "1"));
      var limit := Atoi(QueryOr(limitValue, "10"));
      var key := CacheKey(page, limit);

      if cacheUp && key !in cache {
        // Cache miss.
        var offset := Offset(page, limit);
        if !dbUp {
          return Response(500, Failure("Failed to fetch applicants"));
        }
        var applicants := Page(LiveRecords(), offset, limit);
        cache := cache[key := applicants];
        return Response(200, Listing(applicants, page, limit));
      } else if !cacheUp {
        // Cache error: fall back to the store.
        var offset := Offset(page, limit);
        if !dbUp {
          return Response(500, Failure("Failed to fetch applicants"));
        }
        var applicants := Page(LiveRecords(), offset, limit);
        return Response(200, Listing(applicants, page, limit));
      }
      // Cache hit.
      resp := Response(200, Listing(cache[key], page, limit));
    }

    /** GetApplicant. */
    method Get(id: int, dbUp: bool) returns (resp: Response)
      ensures dbUp && IsLive(id) ==> resp == Response(200, Record(rows[id].applicant))
      ensures !(dbUp && IsLive(id)) ==> resp == Response(404, Failure("Applicant not found"))
    {
      if !dbUp || !IsLive(id) {
        return Response(404, Failure("Applicant not found"));
      }
      resp := Response(200, Record(rows[id].applicant));
    }

    /** UpdateApplicant. `body` is None when the request body does not parse. */
    method Update(id: int, body: Option<Fields>, dbUp: bool, cacheUp: bool) returns (resp: Response)
      requires Valid()
      modifies this
      ensures Valid()
      ensures !(dbUp && old(IsLive(id))) ==>
        resp == Response(404, Failure("Applicant not found")) && unchanged(this)
      ensures dbUp && old(IsLive(id)) && body.None? ==>
        resp == Response(400, Failure("Invalid request body")) && unchanged(this)
      ensures dbUp && old(IsLive(id)) && body.Some? ==>
        var merged := Merge(old(rows)[id].applicant.fields, body.value);
        if !old(Admits(merged, id)) then
          resp == Response(500, Failure("Failed to update applicant")) && unchanged(this)
        else
          resp == Response(200, Record(Applicant(id, merged))) &&
          rows == old(rows)[id := Row(Applicant(id, Stored(merged)), false)] &&
          nextId == old(nextId) &&
          cache == if cacheUp then old(cache) - {Page1Limit10Key, Page1Limit20Key} else old(cache)
    {
      if !dbUp || !IsLive(id) {
        return Response(404, Failure("Applicant not found"));
      }
      var applicant := rows[id].applicant;
      if body.None? {
        return Response(400, Failure("Invalid request body"));
      }
      var merged := Merge(applicant.fields, body.value);
      if !Admits(merged, id) {
        return Response(500, Failure("Failed to update applicant"));
      }
      UpdateKeepsValid(rows, nextId, id, Stored(merged));
      rows := rows[id := Row(Applicant(id, Stored(merged)), false)];
      InvalidateListCache(cacheUp);
      resp := Response(200, Record(applicant.(fields := merged)));
    }

    /** DeleteApplicant: a soft delete, the row stays with its deleted flag set. */
    method Delete(id: int, dbUp: bool, cacheUp: bool) returns (resp: Response)
      requires Valid()
      modifies this
      ensures Valid()
      ensures !(dbUp && old(IsLive(id))) ==>
        resp == Response(404, Failure("Applicant not found")) && unchanged(this)
      ensures dbUp && old(IsLive(id)) ==>
        resp == Response(200, Ack("Applicant deleted successfully")) &&
        rows == old(rows)[id := Row(old(rows)[id].applicant, true)] &&
        nextId == old(nextId) &&
        cache == if cacheUp then old(cache) - {Page1Limit10Key, Page1Limit20Key} else old(cache)
    {
      if !dbUp || !IsLive(id) {
        return Response(404, Failure("Applicant not found"));
      }
      DeleteKeepsValid(rows, nextId, id);
      rows := rows[id := Row(rows[id].applicant, true)];
      InvalidateListCache(cacheUp);
      resp := Response(200, Ack("Applicant deleted successfully"));
    }
  }

  // ---------------------------------------------------------------------------
  // Request sequences
  // ---------------------------------------------------------------------------

  /** A created applicant is then found by its id, exactly as returned. */
  method CreateThenGet(s: Service, body: Fields, cacheUp: bool) returns (created: Response, fetched: Response)
    requires s.Valid()
    modifies s
    ensures s.Valid()
    ensures created.status == 201 ==>
      created.payload.Record? && fetched == Response(200, created.payload) &&
      WellFormed(created.payload.applicant.fields)
  {
    created := s.Create(Some(body), true, cacheUp);
    fetched := created;
    if created.status == 201 {
      AcceptedIsWellFormed(body);
      fetched := s.Get(created.payload.applicant.id, true);
    }
  }

  /**
   * Creating the same body twice: the first create stores the record, and the
   * second finds its email on a live row and answers 409.
   */
  method CreateTwice(s: Service, body: Fields, cacheUp: bool) returns (first: Response, second: Response)
    requires s.Valid()
    modifies s
    ensures s.Valid()
    ensures first.status == 201 ==> second == Response(409, Failure("Email already exists"))
  {
    var id := s.nextId;
    first := s.Create(Some(body), true, cacheUp);
    if first.status == 201 {
      var f := CheckInput(body).fields;
      assert s.IsLive(id) && s.rows[id].applicant.fields.email == f.email;
      assert s.EmailInUse(f.email);
    }
    second := s.Create(Some(body), true, cacheUp);
  }

  /** After a delete succeeds the row is still stored, yet a get of that id answers 404. */
  method DeleteThenGet(s: Service, id: int, cacheUp: bool) returns (deleted: Response, fetched: Response)
    requires s.Valid()
    modifies s
    ensures s.Valid()
    ensures deleted.status == 200 ==> fetched == Response(404, Failure("Applicant not found"))
    ensures deleted.status == 200 ==> id in s.rows && s.rows[id].deleted
  {
    deleted := s.Delete(id, true, cacheUp);
    fetched := s.Get(id, true);
  }

  /**
   * Listing the same page twice with the cache up: the second answer is the
   * first, even when the store is down by then.
   */
  method ListTwice(s: Service, pageValue: string, limitValue: string, secondDbUp: bool)
    returns (first: Response, second: Response)
    requires s.Valid()
    modifies s
    ensures s.Valid()
    ensures first.status == 200 ==> second == first
  {
    first := s.List(pageValue, limitValue, true, true);
    second := s.List(pageValue, limitValue, secondDbUp, true);
  }

  /**
   * Re-using the email of a soft-deleted applicant: the duplicate check only
   * sees live rows, so it passes, and the store's unique index refuses the
   * row with a 500.
   */
  method RecreateDeletedEmail(s: Service, body: Fields, cacheUp: bool)
    returns (created: Response, deleted: Response, again: Response)
    requires s.Valid()
    modifies s
    ensures s.Valid()
    ensures created.status == 201 && deleted.status == 200 ==>
      again == Response(500, Failure("Failed to create applicant"))
  {
    created := s.Create(Some(body), true, cacheUp);
    deleted := Response(0, Ack(""));
    again := Response(0, Ack(""));
    if created.status == 201 {
      var id := created.payload.applicant.id;
      deleted := s.Delete(id, true, cacheUp);
      DeletedEmailStaysTaken(s.rows, s.nextId, id);
      again := s.Create(Some(body), true, cacheUp);
    }
  }

  /**
   * An update is not validated: a patch with an unknown status is stored,
   * and the stored record is no longer well-formed.
   */
  method UpdateStoresInvalidStatus(s: Service, id: int, cacheUp: bool) returns (resp: Response)
    requires s.Valid()
    modifies s
    ensures s.Valid()
    ensures old(s.IsLive(id)) ==>
      resp.status == 200 && id in s.rows && s.rows[id].applicant.fields.status == "ghosted" &&
      !WellFormed(s.rows[id].applicant.fields)
  {
    var patch := Fields("", "", "", "ghosted", "", "", "");
    if s.IsLive(id) {
      var current := s.rows[id].applicant.fields;
      var merged := Merge(current, patch);
      assert merged == current.(status := "ghosted");
      StoredFitting(merged);
      assert EmailFree(s.rows, merged.email, id);
      StatusExamples();
    }
    resp := s.Update(id, Some(patch), true, cacheUp);
  }

  /**
   * A create whose resume holds U+0000: the handler's checks do not look at
   * the resume, so the body can pass them, but the store refuses the row with
   * a 500 and no row is added.
   */
  method CreateWithNulResume(s: Service, body: Fields, cacheUp: bool) returns (resp: Response)
    requires s.Valid() && !NulFree(body.resume)
    modifies s
    ensures s.Valid()
    ensures resp.status != 201 && s.rows == old(s.rows)
    ensures CheckInput(body).Accepted? && !old(s.EmailInUse(CheckInput(body).fields.email)) ==>
      resp == Response(500, Failure("Failed to create applicant"))
  {
    if CheckInput(body).Accepted? {
      var f := CheckInput(body).fields;
      assert f.resume == Sanitize(body).resume == body.resume;
      assert !s.Admits(f, 0) by {
        assert !NoNul(f);
      }
    }
    resp := s.Create(Some(body), true, cacheUp);
  }

  /** Sanitizing "\u212Aate@example.com" leaves it as it is. */
  lemma KelvinSignKept()
    ensures SanitizeString("\U{212A}ate@example.com") == "\U{212A}ate@example.com"
  {
    var raw := "\U{212A}ate@example.com";
    assert !IsSpace(raw[0]) && !IsSpace(raw[|raw| - 1]);
    TrimSpaceOfTrimmed(raw);
  }

  /** Lower-casing "\u212Aate@example.com" gives "kate@example.com". */
  lemma KelvinSignLowered()
    ensures ToLower("\U{212A}ate@example.com") == "kate@example.com"
  {
  }

  /** "kate@example.com" is a valid email. */
  lemma KateEmailAccepted()
    ensures ValidateEmail("kate@example.com")
  {
    var e := "kate@example.com";
    assert e[..4] == "kate" && e[5..12] == "example" && e[13..] == "com";
    assert AllLocal("kate") && AllDomain("example") && AllLetters("com");
    assert e[4] == '@' && e[12] == '.';
    ValidateEmailComplete(e, 4, 12);
  }

  /**
   * The email step of a create on "\u212Aate@example.com": Go's lower-casing
   * turns the Kelvin sign into 'k', and the result is a valid email.
   */
  lemma KelvinSignEmail()
    ensures var e := ToLower(SanitizeString("\U{212A}ate@example.com"));
            e == "kate@example.com" && ValidateEmail(e)
  {
    KelvinSignKept();
    KelvinSignLowered();
    KateEmailAccepted();
  }
}

=== FILE: gostrings.dfy ===
/**
 * The pieces of Go's standard library that the service's core relies on:
 * strings.TrimSpace, strings.ToLower, strings.HasPrefix / TrimPrefix,
 * strconv.Atoi, fmt's %d verb and len() on a string.
 * A Go string is modelled as the sequence of Unicode code points it encodes.
 */
module GoStrings {

  const MinInt64: int := -0x8000_0000_0000_0000
  const MaxInt64: int := 0x7fff_ffff_ffff_ffff
  const MaxUint64: int := 0xffff_ffff_ffff_ffff

  // ---------------------------------------------------------------------------
  // strings.TrimSpace
  // ---------------------------------------------------------------------------

  /** unicode.IsSpace: the characters strings.TrimSpace removes. */
  predicate IsSpace(c: char) {
    c == '\t' || c == '\n' || c == '\U{000B}' || c == '\U{000C}' || c == '\r' || c == ' ' ||
    c == '\U{0085}' || c == '\U{00A0}' || c == '\U{1680}' ||
    ('\U{2000}' <= c <= '\U{200A}') ||
    c == '\U{2028}' || c == '\U{2029}' || c == '\U{202F}' || c == '\U{205F}' || c == '\U{3000}'
  }

  predicate AllSpace(s: string) {
    forall i :: 0 <= i < |s| ==> IsSpace(s[i])
  }

  /** The first index at or after i that does not hold white space (|s| when none). */
  function SpaceEnd(s: string, i: nat): (k: nat)
    requires i <= |s|
    ensures i <= k <= |s|
    ensures forall j :: i <= j < k ==> IsSpace(s[j])
    ensures k < |s| ==> !IsSpace(s[k])
    decreases |s| - i
  {
    if i < |s| && IsSpace(s[i]) then SpaceEnd(s, i + 1) else i
  }

  /** The index just after the last character before j that is not white space (0 when none). */
  function SpaceStart(s: string, j: nat): (k: nat)
    requires j <= |s|
    ensures k <= j
    ensures forall m :: k <= m < j ==> IsSpace(s[m])
    ensures k > 0 ==> !IsSpace(s[k - 1])
  {
    if j > 0 && IsSpace(s[j - 1]) then SpaceStart(s, j - 1) else j
  }

  /** Drops the leading white space of s. */
  function TrimLeftSpace(s: string): (r: string)
    ensures |r| <= |s| && r == s[|s| - |r|..]
    ensures AllSpace(s[..|s| - |r|])
    ensures r == [] || !IsSpace(r[0])
  {
    s[SpaceEnd(s, 0)..]
  }

  /** Drops the trailing white space of s. */
  function TrimRightSpace(s: string): (r: string)
    ensures |r| <= |s| && r == s[..|r|]
    ensures AllSpace(s[|r|..])
    ensures r == [] || !IsSpace(r[|r| - 1])
  {
    s[..SpaceStart(s, |s|)]
  }

  /**
   * strings.TrimSpace: the slice of s that remains once all leading and
   * trailing white space is removed.
   */
  function TrimSpace(s: string): (r: string)
    ensures |r| <= |s|
    ensures r == [] || (!IsSpace(r[0]) && !IsSpace(r[|r| - 1]))
  {
    TrimRightSpace(TrimLeftSpace(s))
  }

  /** What TrimSpace keeps is a slice of s, and all it drops is white space. */
  lemma TrimSpaceSlice(s: string)
    ensures exists i, j :: 0 <= i <= j <= |s| && TrimSpace(s) == s[i..j] && AllSpace(s[..i]) && AllSpace(s[j..])
  {
    var left := TrimLeftSpace(s);
    var r := TrimRightSpace(left);
    var i := |s| - |left|;
    var j := i + |r|;
    assert left == s[i..];
    assert r == s[i..j];
    assert s[j..] == left[|r|..];
    assert AllSpace(s[..i]) && AllSpace(s[j..]);
  }

  /** A string with no white space at either end is its own trim. */
  lemma {:induction false} TrimSpaceOfTrimmed(s: string)
    requires s == [] || (!IsSpace(s[0]) && !IsSpace(s[|s| - 1]))
    ensures TrimSpace(s) == s
  {
    assert TrimLeftSpace(s) == s;
    assert TrimRightSpace(s) == s;
  }

  /** strings.TrimSpace is idempotent. */
  lemma {:induction false} TrimSpaceIdempotent(s: string)
    ensures TrimSpace(TrimSpace(s)) == TrimSpace(s)
  {
    TrimSpaceOfTrimmed(TrimSpace(s));
  }

  /** Only a string made entirely of white space trims to the empty string. */
  lemma {:induction false} TrimSpaceEmpty(s: string)
    ensures TrimSpace(s) == [] <==> AllSpace(s)
  {
    var left := TrimLeftSpace(s);
    var k := |s| - |left|;
    var r := TrimRightSpace(left);
    assert r == TrimSpace(s);
    if r == [] {
      assert AllSpace(left[0..]);
      assert left == [];
      assert s[..|s|] == s;
    } else {
      assert left[0] == r[0];
      assert s[k] == left[0];
    }
  }

  // ---------------------------------------------------------------------------
  // strings.ToLower (the letters whose lower case is ASCII)
  // ---------------------------------------------------------------------------

  predicate IsAsciiUpper(c: char) { 'A' <= c <= 'Z' }

  /** U+212A KELVIN SIGN, whose lower case is 'k'. */
  const KelvinSign: char := '\U{212A}'

  /** U+0130 LATIN CAPITAL LETTER I WITH DOT ABOVE, whose lower case is 'i'. */
  const DottedCapitalI: char := '\U{0130}'

  /**
   * unicode.ToLower on the characters whose lower case is an ASCII letter:
   * the ASCII capitals and the two non-ASCII capitals above.
   */
  function ToLowerChar(c: char): char {
    if IsAsciiUpper(c) then (c as int + 32) as char
    else if c == KelvinSign then 'k'
    else if c == DottedCapitalI then 'i'
    else c
  }

  /** strings.ToLower, restricted to the characters whose lower case is ASCII. */
  function ToLower(s: string): (r: string)
    ensures |r| == |s|
  {
    seq(|s|, i requires 0 <= i < |s| => ToLowerChar(s[i]))
  }

  /**
   * Lower-casing maps each upper-case ASCII letter to its lower-case letter,
   * the Kelvin sign to 'k' and the dotted capital I to 'i', and keeps every
   * other character; none of those capitals remains.
   */
  lemma ToLowerAt(s: string, i: int)
    requires 0 <= i < |s|
    ensures !IsAsciiUpper(ToLower(s)[i]) && ToLower(s)[i] != KelvinSign && ToLower(s)[i] != DottedCapitalI
    ensures IsAsciiUpper(s[i]) ==> ToLower(s)[i] as int == s[i] as int + 32
    ensures s[i] == KelvinSign ==> ToLower(s)[i] == 'k'
    ensures s[i] == DottedCapitalI ==> ToLower(s)[i] == 'i'
    ensures !IsAsciiUpper(s[i]) && s[i] != KelvinSign && s[i] != DottedCapitalI ==> ToLower(s)[i] == s[i]
  {
  }

  /** Lower-casing keeps white space exactly where it was. */
  lemma ToLowerKeepsSpace(s: string, i: int)
    requires 0 <= i < |s|
    ensures IsSpace(ToLower(s)[i]) <==> IsSpace(s[i])
  {
    ToLowerAt(s, i);
  }

  lemma {:induction false} ToLowerIdempotent(s: string)
    ensures ToLower(ToLower(s)) == ToLower(s)
  {
    var t := ToLower(s);
    forall i | 0 <= i < |t| ensures ToLower(t)[i] == t[i] {
      ToLowerAt(s, i);
      ToLowerAt(t, i);
    }
  }

  /** Trimming commutes with lower-casing: the created email is trimmed. */
  lemma {:induction false} ToLowerOfTrimmedIsTrimmed(s: string)
    ensures TrimSpace(ToLower(TrimSpace(s))) == ToLower(TrimSpace(s))
  {
    var t := TrimSpace(s);
    var l := ToLower(t);
    if l != [] {
      ToLowerKeepsSpace(t, 0);
      ToLowerKeepsSpace(t, |t| - 1);
    }
    TrimSpaceOfTrimmed(l);
  }

  // ---------------------------------------------------------------------------
  // strings.HasPrefix / strings.TrimPrefix, and len() on a string
  // ---------------------------------------------------------------------------

  predicate HasPrefix(s: string, prefix: string) {
    |prefix| <= |s| && s[..|prefix|] == prefix
  }

  /** s starts with prefix exactly when s is prefix followed by some rest. */
  lemma HasPrefixSplit(s: string, prefix: string)
    ensures HasPrefix(s, prefix) <==> exists rest :: s == prefix + rest
  {
    if HasPrefix(s, prefix) {
      assert s == prefix + s[|prefix|..];
    }
    forall rest | s == prefix + rest ensures HasPrefix(s, prefix) {
      assert s[..|prefix|] == prefix;
    }
  }

  function TrimPrefix(s: string, prefix: string): (r: string)
    ensures HasPrefix(s, prefix) ==> s == prefix + r
    ensures !HasPrefix(s, prefix) ==> r == s
  {
    if HasPrefix(s, prefix) then s[|prefix|..] else s
  }

  /** Number of bytes of c in UTF-8. */
  function Utf8Width(c: char): nat {
    if c as int < 0x80 then 1 else if c as int < 0x800 then 2 else if c as int < 0x10000 then 3 else 4
  }

  /** len(s): the number of bytes of s in UTF-8. */
  function ByteLen(s: string): (n: nat)
    ensures |s| <= n <= 4 * |s|
  {
    if s == [] then 0 else Utf8Width(s[0]) + ByteLen(s[1..])
  }

  lemma {:induction false} ByteLenAppend(a: string, b: string)
    ensures ByteLen(a + b) == ByteLen(a) + ByteLen(b)
  {
    if a != [] {
      assert (a + b)[1..] == a[1..] + b;
      ByteLenAppend(a[1..], b);
    } else {
      assert a + b == b;
    }
  }

  // ---------------------------------------------------------------------------
  // Decimal digits: fmt's %d and strconv.Atoi
  // ---------------------------------------------------------------------------

  predicate IsDigit(c: char) { '0' <= c <= '9' }

  predicate AllDigits(s: string) {
    forall i :: 0 <= i < |s| ==> IsDigit(s[i])
  }

  function DigitChar(d: nat): (c: char)
    requires d < 10
    ensures IsDigit(c) && c as int - '0' as int == d
  {
    ('0' as int + d) as char
  }

  /** The value of a string of decimal digits, read left to right. */
  function DecimalValue(s: string): nat
    requires AllDigits(s)
  {
    if s == [] then 0 else DecimalValue(s[..|s| - 1]) * 10 + (s[|s| - 1] as int - '0' as int)
  }

  /** Decimal digits of n, without leading zeros. */
  function NatToDecimal(n: nat): (r: string)
    ensures |r| >= 1 && AllDigits(r)
    ensures r[0] == '0' ==> n == 0
  {
    if n < 10 then [DigitChar(n)] else NatToDecimal(n / 10) + [DigitChar(n % 10)]
  }

  /** fmt.Sprintf("%d", n). */
  function FormatInt(n: int): (r: string)
    ensures |r| >= 1
    ensures r[0] == '-' <==> n < 0
  {
    if n < 0 then "-" + NatToDecimal(-n) else NatToDecimal(n)
  }

  /** Reading back the digits %d prints gives the number printed. */
  lemma {:induction false} DecimalRoundTrip(n: nat)
    ensures DecimalValue(NatToDecimal(n)) == n
  {
    if n >= 10 {
      var s := NatToDecimal(n);
      assert s[..|s| - 1] == NatToDecimal(n / 10);
      DecimalRoundTrip(n / 10);
    }
  }

  /** Two naturals with the same digits are equal. */
  lemma NatToDecimalInjective(a: nat, b: nat)
    requires NatToDecimal(a) == NatToDecimal(b)
    ensures a == b
  {
    DecimalRoundTrip(a);
    DecimalRoundTrip(b);
  }

  /** %d never prints two different integers the same way. */
  lemma {:induction false} FormatIntInjective(m: int, n: int)
    requires FormatInt(m) == FormatInt(n)
    ensures m == n
  {
    if m < 0 && n < 0 {
      assert NatToDecimal(-m) == FormatInt(m)[1..] == FormatInt(n)[1..] == NatToDecimal(-n);
      NatToDecimalInjective(-m, -n);
    } else if m >= 0 && n >= 0 {
      NatToDecimalInjective(m, n);
    }
  }

  /** The printed form of an integer contains only digits and a minus sign. */
  lemma FormatIntChars(n: int, i: int)
    requires 0 <= i < |FormatInt(n)|
    ensures IsDigit(FormatInt(n)[i]) || FormatInt(n)[i] == '-'
  {
  }

  /** Length of the longest prefix of s made of decimal digits. */
  function DigitRun(s: string): (k: nat)
    ensures k <= |s| && AllDigits(s[..k])
    ensures k < |s| ==> !IsDigit(s[k])
  {
    if s != [] && IsDigit(s[0]) then
      var k := 1 + DigitRun(s[1..]);
      assert s[..k] == [s[0]] + s[1..][..k - 1];
      k
    else 0
  }

  /** The int64 nearest to v: v itself when it is in range, else the bound it passes. */
  function Clamp64(v: int): (r: int)
    ensures MinInt64 <= r <= MaxInt64
    ensures MinInt64 <= v <= MaxInt64 ==> r == v
    ensures v < MinInt64 ==> r == MinInt64
    ensures v > MaxInt64 ==> r == MaxInt64
  {
    if v < MinInt64 then MinInt64 else if v > MaxInt64 then MaxInt64 else v
  }

  /** The text after an optional leading sign. */
  function Unsigned(s: string): (body: string)
    ensures |s| > 0 && (s[0] == '+' || s[0] == '-') ==> body == s[1..]
    ensures !(|s| > 0 && (s[0] == '+' || s[0] == '-')) ==> body == s
  {
    if |s| > 0 && (s[0] == '+' || s[0] == '-') then s[1..] else s
  }

  /**
   * strconv.Atoi with its error ignored, on a 64-bit platform. An optional
   * sign is followed by the digits. Any other character makes it fail and
   * return 0, unless the digits before that character already overflow
   * uint64: ParseUint then stops early with a range error, and Atoi returns
   * the value clamped to int64, as it does for every out-of-range number.
   */
  function Atoi(s: string): (r: int)
    ensures MinInt64 <= r <= MaxInt64
  {
    var negative := |s| > 0 && s[0] == '-';
    var body := Unsigned(s);
    var k := DigitRun(body);
    var v: int := DecimalValue(body[..k]);
    if v > MaxUint64 then (if negative then MinInt64 else MaxInt64)
    else if k < |body| then 0
    else Clamp64(if negative then -v else v)
  }

  /**
   * A string that is not an optional sign followed by one or more digits, and
   * whose leading digits (after the sign) do not overflow uint64, reads as 0:
   * ParseUint reaches the offending character, or the end of an empty number,
   * and reports a syntax error.
   */
  lemma AtoiSyntaxError(s: string)
    requires var body := Unsigned(s);
             (body == [] || !AllDigits(body)) && DecimalValue(body[..DigitRun(body)]) <= MaxUint64
    ensures Atoi(s) == 0
  {
  }

  /**
   * Leading digits that overflow uint64 give a range error before any later
   * character is read: the result is the int64 bound of the sign.
   */
  lemma AtoiOverflowFirst(s: string)
    requires var body := Unsigned(s); DecimalValue(body[..DigitRun(body)]) > MaxUint64
    ensures Atoi(s) == if s[0] == '-' then MinInt64 else MaxInt64
  {
  }

  /**
   * An optional sign followed by one or more digits reads as the number they
   * spell, leading zeros and a '+' included, clamped to int64: ParseInt's
   * range error, whether ParseUint or the int64 test reports it, gives the
   * bound of the sign.
   */
  lemma {:induction false} AtoiNumeral(s: string)
    requires s != [] && Unsigned(s) != [] && AllDigits(Unsigned(s))
    ensures var v: int := DecimalValue(Unsigned(s)); Atoi(s) == Clamp64(if s[0] == '-' then -v else v)
  {
    var body := Unsigned(s);
    assert DigitRun(body) == |body|;
    assert body[..DigitRun(body)] == body;
  }

  /** A leading '+' is accepted: "+5" is 5. */
  lemma AtoiPlusSign()
    ensures Atoi("+5") == 5
  {
    assert Unsigned("+5") == "5";
    AtoiNumeral("+5");
  }

  /** Leading zeros are accepted: "007" is 7. */
  lemma AtoiLeadingZeros()
    ensures Atoi("007") == 7
  {
    assert "007"[..2] == "00" && "00"[..1] == "0";
    AtoiNumeral("007");
  }

  /** A negative zero is zero: "-0" is 0. */
  lemma AtoiMinusZero()
    ensures Atoi("-0") == 0
  {
    assert Unsigned("-0") == "0";
    AtoiNumeral("-0");
  }

  /** Atoi reads back every int64 that %d prints. */
  lemma {:induction false} AtoiFormatInt(n: int)
    requires MinInt64 <= n <= MaxInt64
    ensures Atoi(FormatInt(n)) == n
  {
    var s := FormatInt(n);
    var digits := if n < 0 then NatToDecimal(-n) else NatToDecimal(n);
    var body := Unsigned(s);
    assert body == digits;
    assert DigitRun(body) == |body|;
    assert body[..|body|] == digits;
    DecimalRoundTrip(if n < 0 then -n else n);
  }
}

=== FILE: models.dfy ===
/**
 * The applicant record (models/applicant.go) and the table that stores it.
 * Timestamps are not modelled; the soft-deletion timestamp is a flag.
 */
module Models {

  /** The fields a client supplies; every one is a Go string, "" when absent. */
  datatype Fields = Fields(
    name: string,
    email: string,
    position: string,
    status: string,
    phone: string,
    resume: string,
    notes: string)

  /** A stored applicant: the id the store assigned, and its fields. */
  datatype Applicant = Applicant(id: int, fields: Fields)

  /** A row of the applicants table; `deleted` stands for a set deleted_at. */
  datatype Row = Row(applicant: Applicant, deleted: bool)

  /**
   * The varchar sizes the schema gives the columns (name 100, email 150,
   * position 100, status 20, phone 20; resume and notes are text): every
   * stored row fits them.
   */
  predicate FitsColumns(f: Fields) {
    |f.name| <= 100 && |f.email| <= 150 && |f.position| <= 100 && |f.status| <= 20 && |f.phone| <= 20
  }

  /**
   * Postgres assigns a value to a varchar(n) column when every character
   * beyond the n-th is a space; any other longer value is refused.
   */
  predicate FitsVarchar(s: string, n: nat) {
    forall i :: n <= i < |s| ==> s[i] == ' '
  }

  /** The value stored in a varchar(n) column: the excess spaces are cut off. */
  function CutToVarchar(s: string, n: nat): (r: string)
    ensures |r| <= n && |r| <= |s| && r == s[..|r|]
    ensures |s| <= n ==> r == s
    ensures |s| > n ==> |r| == n
  {
    if |s| <= n then s else s[..n]
  }

  /** Postgres's UTF8 text types cannot hold the character U+0000. */
  predicate NulFree(s: string) {
    forall i :: 0 <= i < |s| ==> s[i] != '\0'
  }

  /** No column of these fields, text columns included, holds U+0000. */
  predicate NoNul(f: Fields) {
    NulFree(f.name) && NulFree(f.email) && NulFree(f.position) && NulFree(f.status) &&
    NulFree(f.phone) && NulFree(f.resume) && NulFree(f.notes)
  }

  /**
   * The store accepts every column of these fields: no value holds U+0000,
   * and every varchar value fits once its excess spaces are cut.
   */
  predicate Storable(f: Fields) {
    NoNul(f) &&
    FitsVarchar(f.name, 100) && FitsVarchar(f.email, 150) && FitsVarchar(f.position, 100) &&
    FitsVarchar(f.status, 20) && FitsVarchar(f.phone, 20)
  }

  /** The fields as the store keeps them. */
  function Stored(f: Fields): (g: Fields)
    ensures FitsColumns(g)
    ensures g.resume == f.resume && g.notes == f.notes
    ensures FitsColumns(f) ==> g == f
    ensures NoNul(f) ==> NoNul(g)
  {
    Fields(CutToVarchar(f.name, 100), CutToVarchar(f.email, 150), CutToVarchar(f.position, 100),
           CutToVarchar(f.status, 20), CutToVarchar(f.phone, 20), f.resume, f.notes)
  }

  /** A storable value that does not end in a space fits its column as it is. */
  lemma {:induction false} FitsWhenNoTrailingSpace(s: string, n: nat)
    requires FitsVarchar(s, n) && (s == [] || s[|s| - 1] != ' ')
    ensures |s| <= n
  {
  }

  /** Storing fields that fit their columns and hold no U+0000 changes nothing. */
  lemma StoredFitting(f: Fields)
    requires FitsColumns(f) && NoNul(f)
    ensures Storable(f) && Stored(f) == f
  {
  }

  /** An id drawn from the sequence and not used keeps the table valid. */
  lemma SkipIdKeepsValid(rows: map<int, Row>, nextId: int)
    requires TableValid(rows, nextId)
    ensures TableValid(rows, nextId + 1)
  {
  }

  /** No row other than `id` holds this email, soft-deleted rows included. */
  predicate EmailFree(rows: map<int, Row>, email: string, id: int) {
    forall other :: other in rows && other != id ==> rows[other].applicant.fields.email != email
  }

  /** Some live (not soft-deleted) row holds this email. */
  predicate LiveEmail(rows: map<int, Row>, email: string) {
    exists id :: id in rows && !rows[id].deleted && rows[id].applicant.fields.email == email
  }

  /** Rows whose records carry their own id: a record belongs to one row. */
  ghost predicate IdsConsistent(rows: map<int, Row>) {
    forall id :: id in rows ==> rows[id].applicant.id == id
  }

  /**
   * What the table guarantees: ids are assigned below nextId and carried by
   * their records, every row fits its columns and holds no U+0000, and the
   * unique index on email holds across all rows, soft-deleted ones included.
   */
  ghost predicate TableValid(rows: map<int, Row>, nextId: int) {
    1 <= nextId && IdsConsistent(rows) &&
    (forall id :: id in rows ==> 1 <= id < nextId) &&
    (forall id :: id in rows ==> FitsColumns(rows[id].applicant.fields) && NoNul(rows[id].applicant.fields)) &&
    (forall i, j :: i in rows && j in rows && i != j ==>
       rows[i].applicant.fields.email != rows[j].applicant.fields.email)
  }

  /** Inserting a fitting record with a free email at the next id keeps the table valid. */
  lemma InsertKeepsValid(rows: map<int, Row>, nextId: int, f: Fields)
    requires TableValid(rows, nextId)
    requires FitsColumns(f) && NoNul(f) && EmailFree(rows, f.email, 0)
    ensures nextId !in rows
    ensures TableValid(rows[nextId := Row(Applicant(nextId, f), false)], nextId + 1)
  {
  }

  /** Overwriting a row's fields with fitting ones whose email no other row holds keeps the table valid. */
  lemma UpdateKeepsValid(rows: map<int, Row>, nextId: int, id: int, f: Fields)
    requires TableValid(rows, nextId) && id in rows
    requires FitsColumns(f) && NoNul(f) && EmailFree(rows, f.email, id)
    ensures TableValid(rows[id := Row(Applicant(id, f), false)], nextId)
  {
  }

  /** Soft-deleting a row keeps the table valid: the row, and its email, stay. */
  lemma DeleteKeepsValid(rows: map<int, Row>, nextId: int, id: int)
    requires TableValid(rows, nextId) && id in rows
    ensures TableValid(rows[id := Row(rows[id].applicant, true)], nextId)
  {
  }

  /**
   * The email of a soft-deleted row: no live row holds it, so a lookup among
   * live rows finds it free, yet the unique index still counts it as taken.
   */
  lemma DeletedEmailStaysTaken(rows: map<int, Row>, nextId: int, id: int)
    requires TableValid(rows, nextId) && id in rows && rows[id].deleted
    ensures !LiveEmail(rows, rows[id].applicant.fields.email)
    ensures !EmailFree(rows, rows[id].applicant.fields.email, 0)
  {
    var email := rows[id].applicant.fields.email;
    forall other | other in rows && !rows[other].deleted
      ensures rows[other].applicant.fields.email != email
    {
      assert other != id;
    }
  }

  /**
   * The records of the rows with an id in [lo, hi) that are not soft-deleted,
   * in ascending id order: what a query scoped to live rows reads.
   */
  function LiveBetween(rows: map<int, Row>, lo: int, hi: int): (r: seq<Applicant>)
    decreases hi - lo
    ensures forall a :: a in r ==> exists id :: lo <= id < hi && id in rows && !rows[id].deleted && rows[id].applicant == a
    ensures forall id :: lo <= id < hi && id in rows && !rows[id].deleted ==> rows[id].applicant in r
  {
    if lo >= hi then []
    else
      var head := if lo in rows && !rows[lo].deleted then [rows[lo].applicant] else [];
      head + LiveBetween(rows, lo + 1, hi)
  }

  /** A soft-deleted row is kept, but no live read returns its record. */
  lemma {:induction false} DeletedNeverListed(rows: map<int, Row>, lo: int, hi: int, id: int)
    requires IdsConsistent(rows)
    requires id in rows && rows[id].deleted
    ensures rows[id].applicant !in LiveBetween(rows, lo, hi)
  {
    var live := LiveBetween(rows, lo, hi);
    forall b | b in live ensures b.id != id {
      var other :| lo <= other < hi && other in rows && !rows[other].deleted && rows[other].applicant == b;
      assert b.id == other != id;
    }
  }
}

=== FILE: validation.dfy ===
/**
 * The field validators of the service (utils/validation.go). Each regular
 * expression is written out twice: once as the pattern's meaning (a
 * decomposition of the string into the parts the pattern names) and once as
 * a scanning predicate, and the two are proved to agree. Go's RE2 classes
 * `\d` and `\s` are ASCII-only: [0-9] and [\t\n\f\r ].
 */
module Validation {
  import opened GoStrings

  // ---------------------------------------------------------------------------
  // Character classes
  // ---------------------------------------------------------------------------

  predicate IsAsciiLetter(c: char) { ('a' <= c <= 'z') || ('A' <= c <= 'Z') }

  /** RE2 `\s`. */
  predicate IsRe2Space(c: char) { c == '\t' || c == '\n' || c == '\U{000C}' || c == '\r' || c == ' ' }

  /** [a-zA-Z0-9._%+-]: the characters of the local part of an email. */
  predicate IsLocalChar(c: char) {
    IsAsciiLetter(c) || IsDigit(c) || c == '.' || c == '_' || c == '%' || c == '+' || c == '-'
  }

  /** [a-zA-Z0-9.-]: the characters of the domain of an email. */
  predicate IsDomainChar(c: char) { IsAsciiLetter(c) || IsDigit(c) || c == '.' || c == '-' }

  /** [\d\s\-\(\)]: the characters of a phone number after the optional '+'. */
  predicate IsPhoneChar(c: char) { IsDigit(c) || IsRe2Space(c) || c == '-' || c == '(' || c == ')' }

  predicate AllLocal(s: string) { forall i :: 0 <= i < |s| ==> IsLocalChar(s[i]) }
  predicate AllDomain(s: string) { forall i :: 0 <= i < |s| ==> IsDomainChar(s[i]) }
  predicate AllLetters(s: string) { forall i :: 0 <= i < |s| ==> IsAsciiLetter(s[i]) }
  predicate AllPhone(s: string) { forall i :: 0 <= i < |s| ==> IsPhoneChar(s[i]) }

  // ---------------------------------------------------------------------------
  // ValidateEmail: ^[a-zA-Z0-9._%+-]+@[a-zA-Z0-9.-]+\.[a-zA-Z]{2,}$
  // ---------------------------------------------------------------------------

  /**
   * The pattern's meaning: s splits as local "@" domain "." tld with a
   * non-empty local part, a non-empty domain and a tld of two or more letters.
   * `at` and `dot` are the positions of the '@' and of the final '.'.
   */
  ghost predicate EmailSplit(s: string, at: int, dot: int) {
    1 <= at && at + 2 <= dot && dot + 3 <= |s| &&
    s[at] == '@' && s[dot] == '.' &&
    AllLocal(s[..at]) && AllDomain(s[at + 1..dot]) && AllLetters(s[dot + 1..])
  }

  ghost predicate EmailPattern(s: string) {
    exists at, dot :: EmailSplit(s, at, dot)
  }

  /** Position of the first c in s, or |s| when there is none. */
  function IndexOf(s: string, c: char): (k: nat)
    ensures k <= |s|
    ensures forall i :: 0 <= i < k ==> s[i] != c
    ensures k < |s| ==> s[k] == c
  {
    if s == [] then 0 else if s[0] == c then 0 else 1 + IndexOf(s[1..], c)
  }

  /** Length of the longest run of letters that ends s. */
  function TrailingLetters(s: string): (m: nat)
    ensures m <= |s| && AllLetters(s[|s| - m..])
    ensures m < |s| ==> !IsAsciiLetter(s[|s| - m - 1])
  {
    if s != [] && IsAsciiLetter(s[|s| - 1]) then
      var m := 1 + TrailingLetters(s[..|s| - 1]);
      assert s[|s| - m..] == s[..|s| - 1][|s| - m..] + [s[|s| - 1]];
      m
    else 0
  }

  /**
   * What follows the '@': domain characters only, ending in '.' and the
   * maximal run of two or more letters, with something before that '.'.
   */
  predicate DomainAndTld(r: string) {
    var m := TrailingLetters(r);
    AllDomain(r) && m >= 2 && m + 2 <= |r| && r[|r| - m - 1] == '.'
  }

  /**
   * ValidateEmail (utils/validation.go): a single left-to-right reading of the
   * pattern. An accepted email has an '@' with at least one character before
   * it and four after it, as "a@b.cd".
   */
  function ValidateEmail(s: string): (b: bool)
    ensures b ==> 1 <= IndexOf(s, '@') <= |s| - 5
  {
    var at := IndexOf(s, '@');
    1 <= at < |s| && AllLocal(s[..at]) && DomainAndTld(s[at + 1..])
  }

  /** What DomainAndTld accepts splits as domain "." tld. */
  lemma {:induction false} DomainParts(r: string)
    requires DomainAndTld(r)
    ensures var m := TrailingLetters(r);
            AllDomain(r[..|r| - m - 1]) && r[|r| - m - 1] == '.' && AllLetters(r[|r| - m..])
  {
    var m := TrailingLetters(r);
    var domain := r[..|r| - m - 1];
    forall i | 0 <= i < |domain| ensures IsDomainChar(domain[i]) {
      assert domain[i] == r[i];
    }
  }

  /**
   * A local part, an '@' and then r = domain "." tld, where the tld is the
   * last m characters of r, is the pattern's split.
   */
  lemma SplitOfParts(s: string, at: int, r: string, m: int)
    requires 1 <= at < |s| && s[at] == '@' && AllLocal(s[..at]) && r == s[at + 1..]
    requires 2 <= m && m + 2 <= |r| && r[|r| - m - 1] == '.'
    requires AllDomain(r[..|r| - m - 1]) && AllLetters(r[|r| - m..])
    ensures EmailSplit(s, at, at + |r| - m)
  {
    var dot := at + |r| - m;
    assert s[at + 1..dot] == r[..|r| - m - 1];
    assert s[dot + 1..] == r[|r| - m..];
    assert s[dot] == r[|r| - m - 1];
  }

  /** Every accepted email has the pattern's shape. */
  lemma {:induction false} ValidateEmailSound(s: string)
    requires ValidateEmail(s)
    ensures EmailPattern(s)
  {
    var at := IndexOf(s, '@');
    var r := s[at + 1..];
    DomainParts(r);
    SplitOfParts(s, at, r, TrailingLetters(r));
  }

  /** The run of letters ending r is exactly the n letters after its last non-letter. */
  lemma {:induction false} TrailingLettersExact(r: string, n: nat)
    requires n < |r| && AllLetters(r[|r| - n..]) && !IsAsciiLetter(r[|r| - n - 1])
    ensures TrailingLetters(r) == n
  {
    if n > 0 {
      var q := r[..|r| - 1];
      assert r[|r| - 1] == r[|r| - n..][n - 1];
      assert q[|q| - (n - 1)..] == r[|r| - n..][..n - 1];
      assert q[|q| - (n - 1) - 1] == r[|r| - n - 1];
      TrailingLettersExact(q, n - 1);
    }
  }

  /** The '@' of the split is the first one: the local part holds none. */
  lemma IndexOfSplitAt(s: string, at: int, dot: int)
    requires EmailSplit(s, at, dot)
    ensures IndexOf(s, '@') == at
  {
    forall i | 0 <= i < at ensures s[i] != '@' {
      assert IsLocalChar(s[..at][i]);
    }
  }

  /** Domain, '.' and tld together are domain characters. */
  lemma DomainOfSplit(s: string, at: int, dot: int)
    requires EmailSplit(s, at, dot)
    ensures AllDomain(s[at + 1..])
  {
    var r := s[at + 1..];
    forall i | 0 <= i < |r| ensures IsDomainChar(r[i]) {
      if at + 1 + i < dot {
        assert r[i] == s[at + 1..dot][i];
      } else if at + 1 + i > dot {
        assert r[i] == s[dot + 1..][at + i - dot];
      }
    }
  }

  /** Every string of the pattern's shape is accepted. */
  lemma {:induction false} ValidateEmailComplete(s: string, at: int, dot: int)
    requires EmailSplit(s, at, dot)
    ensures ValidateEmail(s)
  {
    IndexOfSplitAt(s, at, dot);
    var r := s[at + 1..];
    var t := s[dot + 1..];
    assert AllDomain(r) by {
      DomainOfSplit(s, at, dot);
    }
    assert TrailingLetters(r) == |t| by {
      assert r[|r| - |t|..] == t;
      assert r[|r| - |t| - 1] == s[dot] == '.';
      TrailingLettersExact(r, |t|);
    }
    assert DomainAndTld(r);
  }

  lemma ValidateEmailIsPattern(s: string)
    ensures ValidateEmail(s) <==> EmailPattern(s)
  {
    if ValidateEmail(s) {
      ValidateEmailSound(s);
    }
    if EmailPattern(s) {
      var at, dot :| EmailSplit(s, at, dot);
      ValidateEmailComplete(s, at, dot);
    }
  }

  /**
   * An accepted email holds exactly one '@', has a non-empty local part before
   * it, and ends in '.' followed by two or more ASCII letters.
   */
  lemma {:induction false} AcceptedEmailShape(s: string)
    requires ValidateEmail(s)
    ensures multiset(s)['@'] == 1
    ensures s[0] != '@'
    ensures exists k :: 0 < k <= |s| - 3 && s[k] == '.' && AllLetters(s[k + 1..])
  {
    var at := IndexOf(s, '@');
    var r := s[at + 1..];
    assert s == s[..at] + [s[at]] + r;
    forall i | 0 <= i < at ensures s[..at][i] != '@' {
      assert IsLocalChar(s[..at][i]);
    }
    assert '@' !in s[..at];
    forall i | 0 <= i < |r| ensures r[i] != '@' {
      assert IsDomainChar(r[i]);
    }
    assert '@' !in r;
    assert s[0] == s[..at][0];
    ValidateEmailSound(s);
    var a, dot :| EmailSplit(s, a, dot);
    assert 0 < dot <= |s| - 3 && s[dot] == '.' && AllLetters(s[dot + 1..]);
  }

  /** An accepted email is made of ASCII letters, digits and ._%+-@ only. */
  lemma AcceptedEmailChars(s: string, i: int)
    requires ValidateEmail(s) && 0 <= i < |s|
    ensures IsLocalChar(s[i]) || s[i] == '@'
  {
    var at := IndexOf(s, '@');
    if i < at {
      assert s[i] == s[..at][i];
    } else if i > at {
      assert s[i] == s[at + 1..][i - at - 1];
    }
  }

  /** An accepted email has no white space at either end, so trimming keeps it. */
  lemma AcceptedEmailTrimmed(s: string)
    requires ValidateEmail(s)
    ensures !IsSpace(s[0]) && !IsSpace(s[|s| - 1])
  {
    AcceptedEmailChars(s, 0);
    AcceptedEmailChars(s, |s| - 1);
  }

  lemma EmailAccepted()
    ensures ValidateEmail("john@example.com")
  {
    var s := "john@example.com";
    assert s[..4] == "john" && s[5..12] == "example" && s[13..] == "com";
    assert AllLocal("john") && AllDomain("example") && AllLetters("com");
    assert s[4] == '@' && s[12] == '.';
    ValidateEmailComplete(s, 4, 12);
  }

  lemma EmailRejected()
    ensures !ValidateEmail("not-an-email")
  {
    assert '@' !in "not-an-email";
    NoAtRejected("not-an-email");
  }

  /** A string without '@' is never an email. */
  lemma NoAtRejected(s: string)
    requires '@' !in s
    ensures !ValidateEmail(s)
  {
    assert IndexOf(s, '@') == |s|;
  }

  // ---------------------------------------------------------------------------
  // ValidatePhone: empty, or ^\+?[\d\s\-\(\)]{10,15}$
  // ---------------------------------------------------------------------------

  /** [\d\s\-\(\)]{10,15} */
  predicate PhoneBody(b: string) { 10 <= |b| <= 15 && AllPhone(b) }

  /** The pattern's meaning: an optional '+' and then the body. */
  ghost predicate PhonePattern(s: string) {
    PhoneBody(s) || (exists b :: s == "+" + b && PhoneBody(b))
  }

  /**
   * ValidatePhone (utils/validation.go): the empty phone is accepted, being
   * optional; any other accepted phone has 10 to 15 characters after at most
   * one '+'.
   */
  function ValidatePhone(s: string): (b: bool)
    ensures s == "" ==> b
    ensures b && s != "" ==> 10 <= |s| <= 16
  {
    if s == "" then true
    else if s[0] == '+' then PhoneBody(s[1..])
    else PhoneBody(s)
  }

  lemma ValidatePhoneIsPattern(s: string)
    ensures ValidatePhone(s) <==> s == "" || PhonePattern(s)
  {
    forall b | s == "+" + b ensures s != "" && s[0] == '+' && b == s[1..] {
    }
    if s != "" && s[0] == '+' {
      assert s == "+" + s[1..];
      assert !IsPhoneChar(s[0]);
    }
  }

  /** An accepted non-empty phone has 10 to 15 phone characters after at most one '+'. */
  lemma AcceptedPhoneShape(s: string)
    requires s != "" && ValidatePhone(s)
    ensures 10 <= |s| <= 16
    ensures forall i :: 0 < i < |s| ==> IsPhoneChar(s[i])
    ensures s[0] == '+' || IsPhoneChar(s[0])
    ensures s[0] == '+' ==> |s| >= 11
  {
    if s[0] == '+' {
      forall i | 0 < i < |s| ensures IsPhoneChar(s[i]) {
        assert s[i] == s[1..][i - 1];
      }
    }
  }

  lemma PhoneExamples()
    ensures ValidatePhone("")
    ensures ValidatePhone("+1234567890")
    ensures !ValidatePhone("abc")
  {
    assert "+1234567890"[1..] == "1234567890";
  }

  // ---------------------------------------------------------------------------
  // SanitizeString and ValidateStatus
  // ---------------------------------------------------------------------------

  /** SanitizeString (utils/validation.go): strings.TrimSpace. */
  function SanitizeString(s: string): (r: string)
    ensures |r| <= |s|
    ensures r == [] || (!IsSpace(r[0]) && !IsSpace(r[|r| - 1]))
  {
    TrimSpace(s)
  }

  /**
   * The sanitized text is a contiguous slice of the input, all it drops is
   * white space, and it is empty exactly when the input is all white space.
   */
  lemma SanitizeSlice(s: string)
    ensures exists i, j :: 0 <= i <= j <= |s| && SanitizeString(s) == s[i..j] && AllSpace(s[..i]) && AllSpace(s[j..])
    ensures SanitizeString(s) == [] <==> AllSpace(s)
  {
    TrimSpaceSlice(s);
    TrimSpaceEmpty(s);
  }

  /** Sanitizing twice is sanitizing once. */
  lemma SanitizeIdempotent(s: string)
    ensures SanitizeString(SanitizeString(s)) == SanitizeString(s)
  {
    TrimSpaceIdempotent(s);
  }

  const AllowedStatuses: seq<string> := ["pending", "reviewed", "interviewed", "hired", "rejected"]

  /** The linear search of ValidateStatus, front to back. */
  function Contains(list: seq<string>, s: string): (r: bool)
    ensures r <==> exists i :: 0 <= i < |list| && list[i] == s
  {
    if list == [] then false
    else if list[0] == s then true
    else
      var r := Contains(list[1..], s);
      assert forall i :: 1 <= i < |list| ==> list[i] == list[1..][i - 1];
      r
  }

  /** ValidateStatus (utils/validation.go). */
  predicate ValidateStatus(s: string)
    ensures ValidateStatus(s) <==>
      s == "pending" || s == "reviewed" || s == "interviewed" || s == "hired" || s == "rejected"
  {
    var r := Contains(AllowedStatuses, s);
    assert AllowedStatuses[0] == "pending" && AllowedStatuses[4] == "rejected";
    r
  }

  lemma StatusExamples()
    ensures ValidateStatus("hired")
    ensures !ValidateStatus("ghosted")
    ensures !ValidateStatus("")
  {
  }
}
